=== FILE: README.md ===
# A Dafny model of the pdr-backend data lake core

This project models three sequential pieces of the pdr-backend data lake and
proves properties about them.

1. **The chunked CSV row store** (`CSVDataStore`). Every dataset has a folder
   of CSV files holding at most 1000 rows each. The files are named
   `<dataset>_from_<start>_to_<end>.csv`, with ten-digit zero-padded
   timestamps. An open file, one that still accepts rows, has an empty end
   field. The model covers:
   - `write`: sort the rows, top up the last file, write the rest as new chunk files;
   - `bulk_write`;
   - `read_all` and `read` (inclusive timestamp window);
   - `get_last_timestamp`, `has_data` and `delete`;
   - the name builders and name parsers.

   A folder is the sequence of its files in sorted-name order, and a file is
   its name and its rows (`csv_data_store.dfy`). The name functions live in
   `csv_naming.dfy`, and the properties that relate several operations in
   `csv_store_properties.dfy`.
2. **The incremental fetch/persist controller** (`GQLDataFactory`). For every
   configured dataset it does four things:
   - finds where the dataset's parquet file ends;
   - fetches newer rows;
   - merges them into the file, keeping the first row per `ID`;
   - loads an inclusive `[st, fin]` window of every file.

   The parquet files are a map from path to table. The fetch function, the
   clock readings and the lake settings are parameters
   (`gql_data_factory.dfy` and `gql_properties.dfy`). Tables, schemas and the
   `group_by("ID").first()` step are in `tables.dfy`.
3. **The AI-model settings validator** (`AimodelSS`). It covers the ordered
   constructor checks, the accessors, `calibrate_probs_skmethod` and the
   default dictionary builder `aimodel_ss_test_dict` (`aimodel_ss.dfy`).

Shared pieces:
- `results.dfy`: the exceptions as a `Result` type, and the `Outcome` of a loop that stops halfway.
- `strings.dfy`: `str.split`, `in`, `replace`, `str(int)` and `int(str)`.
- `paths.dfy`: `os.path.join` and the last path component.
- `seqs.dfy`: concatenation of a list of lists, and prefix slices.
- `rows.dfy`: rows, sorting by timestamp and the window filter.

Python exceptions become `Err` values:
- `ValueError` carries the offending text.
- `IndexError`, `KeyError`, `TypeError` and `AssertionError` stand for the
  failed check or lookup.
- `SchemaError` is the concatenation of two frames with different schemas.

The loops that write as they go (`bulk_write`, `_update` and `get_gql_dfs`)
stop at their first exception, but what they wrote before it stays on disk.
Their `...Outcome` functions return that state together with the error and
the number of rounds completed (`Results.Outcome`). A failed run can then be
re-run from the state it left behind.

Behaviours reproduced as the code has them:
- **A refilled last file is always closed.** In `write`, `remaining_rows` is
  clamped to `len(data)` before the test `len(data) >= remaining_rows`. So the
  test always holds, and a refilled last file is always renamed with its end
  timestamp, even when it holds fewer than 1000 rows
  (`CsvStoreProperties.TopUpShape`). Files with a closed name and fewer than
  1000 rows are therefore part of the folder shape that `write` keeps
  (`CsvStoreProperties.ChunkInvariant`).
- **End time 0 means open.** An end time of 0 gives an open name, as `None` does.
- **The first `from` field wins.** The name parsers use the first
  `_`-separated field containing `from`. A dataset id whose last field is the first to
  contain it breaks them (`CsvNaming.FirstFromFieldWins`). The round trips are proved for dataset
  ids without one (`CsvNaming.ParsableDatasetId`).
- **Fetching resumes 1000 ms after the newest stored row.**
  `_calc_start_ut` resumes at `newest_ut + 1000`, one second after the newest
  stored timestamp, not one millisecond. Whole-second timestamps are therefore
  never skipped (`GqlProperties.NoWholeSecondSkipped`).
- **The first save is not deduplicated.** The first save writes the fetched
  frame as it is. Only later saves merge and deduplicate, so `n_new` can be
  negative after a first save with repeated `ID`s
  (`GqlProperties.NewCountCanBeNegative`).

## Model

| member | source | states |
|---|---|---|
| `Strings.Split` | pdr_backend/lake/csv_data_store.py:190 | `str.split` yields at least one part, and no part contains the separator |
| `Strings.FirstContaining` | pdr_backend/lake/csv_data_store.py:194-201 | the index found is the first field containing the pattern; `None` means no field contains it |
| `Strings.RemoveTrailing` | pdr_backend/lake/csv_data_store.py:215 | `replace(".csv", "")` removes the trailing extension from a field without a `.` |
| `Paths.BaseNameOfJoin` | pdr_backend/lake/csv_data_store.py:187 | the last `/` component of `os.path.join(dir, name)` is `name` when `name` has no `/` |
| `Paths.JoinPathInjective` | pdr_backend/lake/gql_data_factory.py:206-207 | joining two relative names onto one directory gives different paths for different names |
| `CsvNaming.PadWithZeroes` | pdr_backend/lake/csv_data_store.py:25-32 | the padded text is `max(length, len(str(n)))` long, ends with `str(n)` and is `'0'` before that |
| `CsvNaming.PadCharacters` | pdr_backend/lake/csv_data_store.py:31-32 | a padded number holds only digits and a minus sign, so it adds no `_` or `.` to a name |
| `CsvNaming.PadRoundTrip` | pdr_backend/lake/csv_data_store.py:25-32 | padding a non-negative number and parsing it back with `int()` gives the number |
| `CsvNaming.CreateFileName` | pdr_backend/lake/csv_data_store.py:35-49 | the name starts with the dataset id and ends with `.csv`; `FromValueRoundTrip` and `ToValueRoundTrip` read its start and end back |
| `CsvNaming.FileNameFields` | pdr_backend/lake/csv_data_store.py:46-49 | the name splits on `_` into the dataset's fields, then `from`, the padded start, `to`, and the end field with `.csv` (empty for `None` and for 0); it adds no `/` |
| `CsvNaming.GetFromValue` | pdr_backend/lake/csv_data_store.py:222-257 | ValueError naming the path when no field contains `from`; a start value is read only when some field before the last contains `from` |
| `CsvNaming.GetToValue` | pdr_backend/lake/csv_data_store.py:162-220 | `None` when no field contains `from`; an end value is read only when some field at least three places before the last contains `from`; every failure is a ValueError |
| `CsvNaming.ToValueNotANumber` | pdr_backend/lake/csv_data_store.py:215-220 | an end field that is not a number, such as `x` in `d_from_1_to_x.csv`, raises ValueError naming it |
| `CsvNaming.FromValueRoundTrip` | pdr_backend/lake/csv_data_store.py:223-255 | `_get_from_value` of any path to a created name returns the start time, for parsable dataset ids and non-negative starts |
| `CsvNaming.ToValueRoundTrip` | pdr_backend/lake/csv_data_store.py:162-220 | `_get_to_value` returns a non-zero end time and `None` for an open name (end `None` or 0) |
| `CsvNaming.MissingFromField` | pdr_backend/lake/csv_data_store.py:203-257 | with no field containing `from`, `_get_from_value` raises ValueError and `_get_to_value` returns `None` |
| `CsvNaming.FirstFromFieldWins` | pdr_backend/lake/csv_data_store.py:170 | for any dataset id without `/` whose last `_` field is the first to contain `from`, `_get_from_value` parses the literal `from` of the name and raises ValueError |
| `CsvDataStore.Chunks` | pdr_backend/lake/csv_data_store.py:134-137 | every slice of the chunk loop holds between 1 and 1000 rows |
| `CsvDataStore.ChunksShape` | pdr_backend/lake/csv_data_store.py:134-137 | the slices concatenate to the input, all but the last hold exactly 1000 rows, and there are `ceil(n / 1000)` of them |
| `CsvDataStore.ChunkData` | pdr_backend/lake/csv_data_store.py:69-77 | `_chunk_data` returns non-empty slices of at most 1000 rows, all but the last full, whose concatenation is the input |
| `CsvDataStore.NewChunkFilesRows` | pdr_backend/lake/csv_data_store.py:134-147 | the new chunk files hold exactly the remaining rows, in order |
| `CsvDataStore.LastFileRowCount` | pdr_backend/lake/csv_data_store.py:370-393 | `None` exactly when the folder has no file |
| `CsvDataStore.TopUpLastFile` | pdr_backend/lake/csv_data_store.py:97-132 | IndexError exactly when the last file and the input are both empty; the file count is kept; a missing or full last file leaves folder and input as they are |
| `CsvDataStore.Refill` | pdr_backend/lake/csv_data_store.py:104-132 | given `remaining_rows`, IndexError exactly when the last file and the rows taken are both empty; the file count is kept |
| `CsvDataStore.TopUpConserves` | pdr_backend/lake/csv_data_store.py:97-132 | the rows moved into the last file plus the rows left over are the old rows followed by the input: none lost, none repeated |
| `CsvDataStore.WriteFolder` | pdr_backend/lake/csv_data_store.py:93-147 | after `write` the folder's rows are the old rows followed by the input sorted by timestamp; it fails exactly when the last file and the input are empty |
| `CsvDataStore.Write` | pdr_backend/lake/csv_data_store.py:79-147 | `read_all` after `write` is the old `read_all` followed by the sorted input; the base path and every other dataset are unchanged; the failure condition is the same as `WriteFolder`'s |
| `CsvDataStore.BulkWrite` | pdr_backend/lake/csv_data_store.py:149-159 | a successful `bulk_write` keeps the base path |
| `CsvDataStore.BulkWriteOutcome` | pdr_backend/lake/csv_data_store.py:158-159 | fails exactly when `bulk_write` fails, with its error; on failure the batches before the failing one stay written and the failing `write` changes nothing |
| `CsvDataStore.BulkWriteAppends` | pdr_backend/lake/csv_data_store.py:149-159 | after a successful `bulk_write`, `read_all` has gained every batch, each sorted on its own, in batch order; other datasets are unchanged |
| `CsvDataStore.ReadAll` | pdr_backend/lake/csv_data_store.py:309-335 | an empty result when there are no files |
| `CsvDataStore.Read` | pdr_backend/lake/csv_data_store.py:276-307 | with `filter_args` False, `read_all` as it is; otherwise every `read_all` row inside `[start, end]` as often as it occurs there, and no other row |
| `CsvDataStore.GetLastFilePath` | pdr_backend/lake/csv_data_store.py:337-347 | `""` without files; otherwise a path whose last `/` component is the last file's name (for names without `/`) |
| `CsvDataStore.GetLastTimestamp` | pdr_backend/lake/csv_data_store.py:349-368 | `None` when there are no files |
| `CsvDataStore.Delete` | pdr_backend/lake/csv_data_store.py:395-411 | the dataset's folder is gone, every other dataset is unchanged, and deleting an absent dataset changes nothing |
| `CsvDataStore.HasData` | pdr_backend/lake/csv_data_store.py:259-274 | a dataset without data has no rows; `CsvStoreProperties.HasDataIffRows` gives the converse on well-shaped folders |
| `CsvStoreProperties.NewChunkFilesInvariant` | pdr_backend/lake/csv_data_store.py:139-147 | the files of the chunk loop are well named and all full but the last |
| `CsvStoreProperties.TopUpShape` | pdr_backend/lake/csv_data_store.py:97-132 | a last file that is not full takes the first `min(1000 - count, n)` input rows, ends with at most 1000 rows (exactly 1000 when rows are left over), and always gets the closed name |
| `CsvStoreProperties.TopUpIsRefill` | pdr_backend/lake/csv_data_store.py:97-102 | below 1000 rows the top-up takes `min(1000 - count, n)` input rows |
| `CsvStoreProperties.RefillShape` | pdr_backend/lake/csv_data_store.py:104-132 | earlier files are untouched; the last file holds its rows and the first `k` input rows under the closed name; the input from `k` on is left over |
| `CsvStoreProperties.TopUpBounded` | pdr_backend/lake/csv_data_store.py:97-104 | the last file gains at most `1000 - count` rows, exactly the rows taken from the input; earlier files and a full last file are untouched |
| `CsvStoreProperties.WriteKeepsInvariant` | pdr_backend/lake/csv_data_store.py:93-147 | `write` into a well-shaped folder succeeds and leaves it well shaped: files of 1 to 1000 rows, all full but the last, each named closed or (when not full) open |
| `CsvStoreProperties.StoreWriteKeepsInvariant` | pdr_backend/lake/csv_data_store.py:79-147 | the same on the whole store |
| `CsvStoreProperties.WriteIntoEmptyFolder` | pdr_backend/lake/csv_data_store.py:134-147 | writing n rows into an empty folder creates `ceil(n / 1000)` chunk files of the sorted rows (1700 rows: one closed file of 1000 and one open file of 700) |
| `CsvStoreProperties.ChunkFileNameParses` | pdr_backend/lake/csv_data_store.py:139-147 | a new chunk's name parses back to its first timestamp, and carries an end timestamp exactly when the chunk is full |
| `CsvStoreProperties.LastTimestampIsLastRow` | pdr_backend/lake/csv_data_store.py:349-368 | on a well-shaped folder, `get_last_timestamp` returns the timestamp of the last row of `read_all`, whether it reads the name or the file |
| `CsvStoreProperties.HasDataAfterWrite` | pdr_backend/lake/csv_data_store.py:259-274 | after a successful write of at least one row the dataset has data, and at least that many rows |
| `CsvStoreProperties.HasDataIffRows` | pdr_backend/lake/csv_data_store.py:259-274 | on a well-shaped folder, `has_data` holds exactly when `read_all` is non-empty |
| `CsvStoreProperties.NothingAfterDelete` | pdr_backend/lake/csv_data_store.py:395-411 | after `delete`: no data, no rows, no last timestamp |
| `CsvStoreProperties.ReadIsWindow` | pdr_backend/lake/csv_data_store.py:295-307 | a filtered read is the window of `read_all`, also when `read_all` is empty |
| `CsvStoreProperties.ReadAfterWrite` | pdr_backend/lake/csv_data_store.py:295-307 | a windowed read after `write` is the old window followed by the window of the sorted input |
| `CsvStoreProperties.WriteKeepsTimeOrder` | pdr_backend/lake/csv_data_store.py:85-95 | a batch no earlier than every stored row keeps `read_all` in timestamp order |
| `Rows.SortByTimestamp` | pdr_backend/lake/csv_data_store.py:95 | the result is in timestamp order and a permutation of the input |
| `Rows.SortedPermutationsAgree` | pdr_backend/lake/csv_data_store.py:95 | a timestamp-sorted permutation of rows whose timestamps strictly increase is those rows, whatever the tie rule of the sort |
| `Rows.SortIsUniqueWithoutTies` | pdr_backend/lake/csv_data_store.py:95 | when a sort's result has no tied timestamps, the model's sort gives that same result |
| `Rows.FilterWindow` | pdr_backend/lake/csv_data_store.py:305-307 | every row kept lies inside `[st, fin]`, and there are no more rows than before |
| `Rows.FilterWindowCounts` | pdr_backend/lake/csv_data_store.py:305-307 | the filter keeps every occurrence of a row inside the window and none outside it |
| `Rows.FilterWindowAppend` | pdr_backend/lake/csv_data_store.py:305-307 | filtering a concatenation filters each part, keeping their order |
| `Tables.DedupFromIds` | pdr_backend/lake/gql_data_factory.py:235 | the rows kept have distinct `ID`s, namely the `ID`s of the input not yet seen |
| `Tables.DedupFromFirst` | pdr_backend/lake/gql_data_factory.py:235 | every row kept is the first input row with its `ID` |
| `Tables.GroupByFirst` | pdr_backend/lake/gql_data_factory.py:235 | `group_by("ID").first()` keeps exactly one row per `ID` of the input, the first one |
| `Tables.DedupFromAppend` | pdr_backend/lake/gql_data_factory.py:227-235 | deduplicating a concatenation adds, after the first part, only the `ID`s the first part lacks |
| `Tables.UniqueIdsCount` | pdr_backend/lake/gql_data_factory.py:238 | rows with distinct `ID`s are as many as their `ID`s |
| `GqlDataFactory.ParquetFilename` | pdr_backend/lake/gql_data_factory.py:195-208 | the path ends with `<key>.parquet` |
| `GqlDataFactory.CalcStartUt` | pdr_backend/lake/gql_data_factory.py:134-157 | no file: the configured start; an empty file: the configured start, and the file is removed; otherwise the newest stored timestamp plus 1000; no other file changes |
| `GqlDataFactory.SaveParquet` | pdr_backend/lake/gql_data_factory.py:210-242 | fails exactly on a broken precondition (Int64 `timestamp`, a row, first timestamp <= last) or a schema clash with the stored file; a new file is the frame verbatim; a merged file has distinct `ID`s, the union of stored and fetched `ID`s; no other file changes |
| `GqlDataFactory.UpdateDataset` | pdr_backend/lake/gql_data_factory.py:110-132 | one round of `_update` changes no file but the dataset's own |
| `GqlDataFactory.Update` | pdr_backend/lake/gql_data_factory.py:94-132 | `_update` changes no file outside the configured datasets' files |
| `GqlDataFactory.UpdateOutcome` | pdr_backend/lake/gql_data_factory.py:110-132 | fails exactly when `_update` fails, with its error; on failure the files are those of the rounds before the failing one, plus the failing round's removal of an empty file |
| `GqlDataFactory.LoadDataset` | pdr_backend/lake/gql_data_factory.py:173-191 | a loaded table has the declared schema and only rows inside `[st, fin]` |
| `GqlDataFactory.LoadAll` | pdr_backend/lake/gql_data_factory.py:171-193 | the loop of `_load_parquet` gives one table per record key |
| `GqlDataFactory.LoadParquet` | pdr_backend/lake/gql_data_factory.py:159-193 | one table per configured key |
| `GqlDataFactory.LoadParquetWindow` | pdr_backend/lake/gql_data_factory.py:159-193 | every loaded table holds only rows inside `[st, fin]` |
| `GqlDataFactory.GetGqlDfs` | pdr_backend/lake/gql_data_factory.py:64-92 | fails without configured datasets; otherwise one table per key, each inside `[st_timestamp, fin_timestamp]` |
| `GqlDataFactory.GetGqlDfsAfterUpdate` | pdr_backend/lake/gql_data_factory.py:82-92 | a failing `_update` fails `get_gql_dfs` with the same error; a success leaves the files `_update` produced |
| `GqlDataFactory.GetGqlDfsOutcome` | pdr_backend/lake/gql_data_factory.py:82-92 | whether or not `get_gql_dfs` fails, the files it leaves are those its `_update` left |
| `GqlProperties.NoWholeSecondSkipped` | pdr_backend/lake/gql_data_factory.py:156-157 | with whole-second timestamps, no whole-second timestamp later than every stored row lies before the resume point, whatever the row order |
| `GqlProperties.ResumeAfterStored` | pdr_backend/lake/gql_data_factory.py:156-157 | for a file in time order, the resume point is after every stored row |
| `GqlProperties.SkipIgnoresFetch` | pdr_backend/lake/gql_data_factory.py:114-118 | a dataset whose start is after `min(now, fin)` is neither fetched nor saved |
| `GqlProperties.EmptyFetchSavesNothing` | pdr_backend/lake/gql_data_factory.py:127-132 | an empty fetched frame is not saved |
| `GqlProperties.SchemaMismatchFails` | pdr_backend/lake/gql_data_factory.py:128-129 | a non-empty fetched frame with a foreign schema is an assertion failure |
| `GqlProperties.FetchedRowsLand` | pdr_backend/lake/gql_data_factory.py:125-132 | a saved frame leaves all its `ID`s in the file; a missing or emptied file becomes the frame itself |
| `GqlProperties.UpdateFetchesUpToFin` | pdr_backend/lake/gql_data_factory.py:110-132 | `_update` asks the fetch functions only for data ending at `fin` |
| `GqlProperties.GqlDfsUsesOneFin` | pdr_backend/lake/gql_data_factory.py:74-83 | `get_gql_dfs` depends on the fetch functions only at the one `fin_timestamp` it reads |
| `GqlProperties.MergeKeepsStored` | pdr_backend/lake/gql_data_factory.py:225-237 | in the model's group order: merging into a file with distinct `ID`s gives the stored rows followed by the first row of each new `ID` |
| `GqlProperties.MergeKeepsStoredAnyOrder` | pdr_backend/lake/gql_data_factory.py:225-237 | in every group order: the merged rows are the stored rows together with the first row of each new `ID`, and as many |
| `Tables.GroupedFirstAgree` | pdr_backend/lake/gql_data_factory.py:235 | any two results `group_by("ID").first()` may return hold the same rows, as many: they differ only in order |
| `GqlProperties.StoredRowWins` | pdr_backend/lake/gql_data_factory.py:225-237 | in every group order, for an `ID` already stored, the merged file holds the stored row |
| `GqlProperties.MergeCountAnyOrder` | pdr_backend/lake/gql_data_factory.py:235-238 | in every group order, `n_new` equals the number of fetched `ID`s not yet stored |
| `GqlProperties.MergeCount` | pdr_backend/lake/gql_data_factory.py:238 | `n_new` equals the number of fetched `ID`s not yet stored, so it is at least 0 when the stored `ID`s are distinct |
| `GqlProperties.NewCountCanBeNegative` | pdr_backend/lake/gql_data_factory.py:238-241 | after a verbatim first save with a repeated `ID`, `n_new` can be negative |
| `GqlProperties.MergeTwice` | pdr_backend/lake/gql_data_factory.py:226-235 | in the model's group order, merging the same rows a second time changes nothing |
| `GqlProperties.MergeTwiceAnyOrder` | pdr_backend/lake/gql_data_factory.py:226-235 | in every group order, merging the same rows a second time keeps the same rows, their number and their `ID`s |
| `GqlProperties.SaveTwiceIsIdempotent` | pdr_backend/lake/gql_data_factory.py:225-237 | in the model's group order, saving the same frame into an existing file a second time changes nothing |
| `GqlProperties.SaveTwiceAnyOrder` | pdr_backend/lake/gql_data_factory.py:225-237 | in every group order, the second save of the same frame succeeds and keeps the schema, the rows, their number and their `ID`s; only the row order may change |
| `GqlProperties.SaveTwiceKeepsIdsAnyOrder` | pdr_backend/lake/gql_data_factory.py:225-237 | in every group order, a frame merged with itself keeps its `ID` set, and its row count when its `ID`s are distinct |
| `GqlProperties.SaveTwiceKeepsIds` | pdr_backend/lake/gql_data_factory.py:225-241 | saving a frame a second time after it created the file keeps the `ID` set, and the row count when its `ID`s are distinct |
| `GqlProperties.LoadAbsentIsEmpty` | pdr_backend/lake/gql_data_factory.py:180-183 | a dataset without a file loads as an empty table of its declared schema |
| `GqlProperties.LoadStoredWindow` | pdr_backend/lake/gql_data_factory.py:180-187 | a stored file loads as exactly its rows inside `[st, fin]`, with their multiplicities |
| `GqlProperties.LoadAllPerKey` | pdr_backend/lake/gql_data_factory.py:171-193 | with distinct keys, each key of the loop's result maps to what loading its own record gave |
| `GqlProperties.LoadParquetPerKey` | pdr_backend/lake/gql_data_factory.py:173-191 | with distinct keys, each key maps to its own dataset's window |
| `AimodelSettings.CheckPositive` | pdr_backend/ppss/aimodel_ss.py:32-35 | the check passes exactly for a present positive integer |
| `AimodelSettings.CheckOption` | pdr_backend/ppss/aimodel_ss.py:37-44 | the check passes exactly for a present string from the option list |
| `AimodelSettings.NewAimodelSS` | pdr_backend/ppss/aimodel_ss.py:26-29 | a constructed object holds the given dictionary |
| `AimodelSettings.ConstructorAcceptsValid` | pdr_backend/ppss/aimodel_ss.py:31-44 | construction succeeds exactly when both numbers are positive integers and the four choices come from their option lists |
| `AimodelSettings.MaxNTrainNotPositive` | pdr_backend/ppss/aimodel_ss.py:32-33 | `max_n_train <= 0` raises ValueError with that value |
| `AimodelSettings.AutoregressiveNNotPositive` | pdr_backend/ppss/aimodel_ss.py:34-35 | `autoregressive_n <= 0` raises ValueError with that value once `max_n_train` passes |
| `AimodelSettings.NonNumberIsTypeError` | pdr_backend/ppss/aimodel_ss.py:32 | comparing a non-number `max_n_train` with 0 raises TypeError |
| `AimodelSettings.ApproachNotAnOption` | pdr_backend/ppss/aimodel_ss.py:37-38 | an `approach` outside its list raises ValueError with that value once both numbers pass |
| `AimodelSettings.WeightRecentNotAnOption` | pdr_backend/ppss/aimodel_ss.py:39-40 | a `weight_recent` outside its list raises ValueError with that value once the earlier checks pass |
| `AimodelSettings.BalanceClassesNotAnOption` | pdr_backend/ppss/aimodel_ss.py:41-42 | a `balance_classes` outside its list raises ValueError with that value once the earlier checks pass |
| `AimodelSettings.CalibrateProbsNotAnOption` | pdr_backend/ppss/aimodel_ss.py:43-44 | a `calibrate_probs` outside its list raises ValueError with that value once the earlier checks pass |
| `AimodelSettings.MissingSetting` | pdr_backend/ppss/aimodel_ss.py:49-52 | a missing `max_n_train` raises KeyError |
| `AimodelSettings.AccessorsReturnStored` | pdr_backend/ppss/aimodel_ss.py:49-77 | every property of a constructed object returns the dictionary's value unchanged |
| `AimodelSettings.CalibrateProbsSkMethod` | pdr_backend/ppss/aimodel_ss.py:79-89 | fewer than 200 samples give "sigmoid", whatever the setting |
| `AimodelSettings.CalibrationMapping` | pdr_backend/ppss/aimodel_ss.py:91-96 | from 200 samples on: Sigmoid gives "sigmoid", Isotonic gives "isotonic", and the method fails exactly for "None", with ValueError("None") |
| `AimodelSettings.TestDict` | pdr_backend/ppss/aimodel_ss.py:103-121 | the dictionary has exactly the six settings keys; an integer argument of `None` becomes 7 or 3 and any given integer, 0 included, is kept; a string argument of `None` or `""` becomes its default and any other string is kept |
| `AimodelSettings.DefaultsAreValid` | pdr_backend/ppss/aimodel_ss.py:103-121 | the all-defaults dictionary passes construction |
| `AimodelSettings.ExplicitZeroIsKept` | pdr_backend/ppss/aimodel_ss.py:114 | an explicit `max_n_train=0` is kept, and construction then raises ValueError("0") |
| `AimodelSettings.EmptyStringTakesDefault` | pdr_backend/ppss/aimodel_ss.py:116 | an empty `approach` gives the same dictionary as no `approach` |

## Left out

- **File system.** Not modelled: `os.makedirs`, `os.listdir`,
  `os.path.getsize`, `os.rename`, `os.remove`, `os.rmdir`, and polars
  `read_csv`/`write_csv`/`read_parquet`/`write_parquet`. A folder is the
  sequence of its files in sorted-name order, and the lake is a map from
  path to table.
- **File order.** A new chunk file is appended, and a renamed last file stays
  last. The source re-sorts the names instead. The two orders agree when
  batches are written in time order, every padded timestamp has the same
  number of digits, and no more than 1000 rows share one timestamp. With
  1001 rows at one timestamp they differ: the open file
  `d_from_<t>_to_.csv` sorts before the full file `d_from_<t>_to_<t>.csv`,
  because `.` comes before `0`. The source then reads the open file first
  and treats the full file as the last one, so its next `write` starts a
  new file where the model tops up the open one. The lexicographic order of
  file names is not modelled.
- **Tie order of the sort.** `data.sort("timestamp")` does not promise an
  order for rows with equal timestamps. The model keeps them in input order.
  `Rows.SortIsUniqueWithoutTies` shows that this choice matters only when
  timestamps tie.
- **Directory creation.** `_get_folder_path` and `_create_file_path` create
  directories as a side effect. The model has no directories. For the same
  reason, `delete` always finds the folder.
- **Name collisions.** Overwriting an existing file on a name collision in
  `write` is not modelled.
- CsvDataStore.HasData: `has_data` tests byte sizes. The model counts files
  instead, because every file `write` creates starts with a CSV header line.
- **Frames.** Polars dtypes, the `schema` argument of the CSV reads, and
  `vstack` schema errors inside `write` are not modelled. Model rows always
  carry `ID` and `timestamp`, so the `"timestamp" not in data.columns` branch
  of `read` cannot arise.
- **Group order.** `group_by("ID").first()` leaves the order of its groups
  open. The model keeps them in order of first occurrence; `Tables.GroupedFirst`
  states what polars promises in any order, and `Tables.GroupedFirstAgree`
  shows that two such results differ only in order. The lemmas named
  `...AnyOrder` and `StoredRowWins` take the merged rows in any such order.
  `MergeCount` and `SaveTwiceKeepsIds` are stated on the model's order; their
  counts and `ID` sets carry over to every order, as `MergeCountAnyOrder` and
  `SaveTwiceKeepsIdsAnyOrder` state. Because the source's row order after a
  merge is arbitrary, so is the row `newest_ut` reads, and the source's next
  resume point is any stored timestamp plus 1000, not the last one of the
  model's order; `GqlProperties.NoWholeSecondSkipped` holds in every such case.
- MergeKeepsStored: the row sequence it states holds only in the model's
  group order. In the source, only the rows and their number are promised,
  as `MergeKeepsStoredAnyOrder` states.
- MergeTwice: "changes nothing" holds only in the model's group order. In
  the source, a second merge may reorder the rows, as `MergeTwiceAnyOrder`
  states.
- SaveTwiceIsIdempotent: equality of the whole file holds only in the
  model's group order. In the source, the second save may reorder the rows
  and so change the row `newest_ut` reads; `SaveTwiceAnyOrder` states what
  is kept.
- **Column order.** Schemas are dictionaries in the model, and frame schemas
  are compared as such. In polars, `pl.concat` matches columns by position,
  and `group_by("ID")` moves `ID` to the first column. The model's merge is
  therefore faithful only when `ID` is the first column of the stored file
  and of the fetched frame.
- **`plutil`.** `plutil.has_data` and `plutil.newest_ut` are not part of this
  model. They are taken as "the table has a row" and "the timestamp of the
  last stored row".
- **Clock.** `current_ut_ms` is read once per dataset in `_update`. The model
  takes the readings as the `nows` parameter.
- **Fetch functions.** `get_pdr_predictions_df` and `get_pdr_subscriptions_df`,
  with their network and config arguments, are the `fetch` parameter.
- **Not modelled:** `GQLDataFactory.__init__` (a network call),
  `_post_fetch_process_truevals`, `_post_fetch_process_payouts`, logging, and
  the bronze and silver tables.
- **Floats.** Settings values are integers, strings, or other objects kept as
  text. Floats, `np.inf` and booleans-as-integers are not modelled, so the
  `< np.inf` test is always true for the integers modelled.
- Strings.ParseInt: Python's `int()` also accepts surrounding whitespace,
  underscores between digits, and non-ASCII digits. The model accepts only
  an optional sign followed by ASCII digits, which is all the store's names
  contain.
- CsvNaming.GetFromValue: its own contract states only the error case and
  where a `from` field must be. The value it returns is stated by
  `CsvNaming.FromValueRoundTrip`, for names the store creates.
- CsvNaming.GetToValue: its own contract states the `None` case, where a
  `from` field must be for a value, and that every failure is a ValueError.
  The value it returns is stated by `CsvNaming.ToValueRoundTrip`, for names
  the store creates, and a non-numeric end field by
  `CsvNaming.ToValueNotANumber`.
- CsvDataStore.GetLastTimestamp: its own contract covers only the case
  without files. The value on a folder `write` produced is stated by
  `CsvStoreProperties.LastTimestampIsLastRow`, for parsable dataset ids and
  non-negative timestamps.
- CsvDataStore.BulkWrite: its own contract states only that the base path is
  kept. What `read_all` holds afterwards is stated by
  `CsvDataStore.BulkWriteAppends`.
- GqlDataFactory.LoadParquet: its own contract states only the key set. The
  window of each table is stated by `GqlDataFactory.LoadParquetWindow`, and
  the table of each key by `GqlProperties.LoadParquetPerKey`.

=== FILE: aimodel_ss.dfy ===
/** The AI-model settings validator (`AimodelSS` in pdr_backend/ppss/aimodel_ss.py).

    The settings are the `aimodel_ss` dictionary of the YAML file. The
    constructor checks two positive integers and four choices from fixed
    option lists, raising on the first check that fails. */
module AimodelSettings {
  import opened Results
  import opened Strings

  /** A dictionary value: an integer, a string, or any other object, kept
      as its printed form. */
  datatype Value = IntValue(i: int) | StrValue(s: string) | OtherValue(repr: string)

  type Dict = map<string, Value>

  const ApproachOptions: seq<string> := ["LinearLogistic", "LinearLogistic_Balanced", "LinearSVC", "Constant"]
  const WeightRecentOptions: seq<string> := ["10x_5x", "None"]
  const BalanceClassesOptions: seq<string> := ["SMOTE", "RandomOverSampler", "None"]
  const CalibrateProbsOptions: seq<string> :=
    ["CalibratedClassifierCV_Sigmoid", "CalibratedClassifierCV_Isotonic", "None"]

  const MaxNTrainKey: string := "max_n_train"
  const AutoregressiveNKey: string := "autoregressive_n"
  const ApproachKey: string := "approach"
  const WeightRecentKey: string := "weight_recent"
  const BalanceClassesKey: string := "balance_classes"
  const CalibrateProbsKey: string := "calibrate_probs"

  /** The settings object: the dictionary it was built from. */
  datatype AimodelSS = AimodelSS(d: Dict)

  /** What `ValueError(x)` carries: the offending value as text. */
  function Show(v: Value): string {
    match v
    case IntValue(i) => IntToString(i)
    case StrValue(s) => s
    case OtherValue(repr) => repr
  }

  // ---------------------------------------------------------------------------
  // Accessors

  /** `self.d[key]`: KeyError when the key is missing. */
  function Lookup(d: Dict, key: string): (r: Result<Value>)
    ensures r.Ok? <==> key in d
    ensures r.Ok? ==> r.value == d[key]
    ensures r.Err? ==> r.error == KeyError(key)
  {
    if key in d then Ok(d[key]) else Err(KeyError(key))
  }

  function MaxNTrain(ss: AimodelSS): (r: Result<Value>) { Lookup(ss.d, MaxNTrainKey) }
  function AutoregressiveN(ss: AimodelSS): (r: Result<Value>) { Lookup(ss.d, AutoregressiveNKey) }
  function Approach(ss: AimodelSS): (r: Result<Value>) { Lookup(ss.d, ApproachKey) }
  function WeightRecent(ss: AimodelSS): (r: Result<Value>) { Lookup(ss.d, WeightRecentKey) }
  function BalanceClasses(ss: AimodelSS): (r: Result<Value>) { Lookup(ss.d, BalanceClassesKey) }
  function CalibrateProbs(ss: AimodelSS): (r: Result<Value>) { Lookup(ss.d, CalibrateProbsKey) }

  // ---------------------------------------------------------------------------
  // Construction

  /** `not 0 < x` (and `not 0 < x < inf`, the same test for an integer):
      TypeError when `x` is not a number, ValueError when it is not positive. */
  function CheckPositive(d: Dict, key: string): (r: Result<()>)
    ensures r.Ok? <==> key in d && d[key].IntValue? && d[key].i > 0
  {
    var v :- Lookup(d, key);
    match v
    case IntValue(i) => if 0 < i then Ok(()) else Err(ValueError(IntToString(i)))
    case _ => Err(TypeError)
  }

  /** `x not in OPTIONS`: ValueError unless `x` is one of the strings listed. */
  function CheckOption(d: Dict, key: string, options: seq<string>): (r: Result<()>)
    ensures r.Ok? <==> key in d && d[key].StrValue? && d[key].s in options
  {
    var v :- Lookup(d, key);
    if v.StrValue? && v.s in options then Ok(()) else Err(ValueError(Show(v)))
  }

  /** `AimodelSS(d)`: the six checks in source order; the first failure is raised. */
  function NewAimodelSS(d: Dict): (r: Result<AimodelSS>)
    ensures r.Ok? ==> r.value.d == d
  {
    var _ :- CheckPositive(d, MaxNTrainKey);
    var _ :- CheckPositive(d, AutoregressiveNKey);
    var _ :- CheckOption(d, ApproachKey, ApproachOptions);
    var _ :- CheckOption(d, WeightRecentKey, WeightRecentOptions);
    var _ :- CheckOption(d, BalanceClassesKey, BalanceClassesOptions);
    var _ :- CheckOption(d, CalibrateProbsKey, CalibrateProbsOptions);
    Ok(AimodelSS(d))
  }

  /** The settings the constructor accepts, stated key by key. */
  predicate Valid(d: Dict) {
    && MaxNTrainKey in d && d[MaxNTrainKey].IntValue? && d[MaxNTrainKey].i > 0
    && AutoregressiveNKey in d && d[AutoregressiveNKey].IntValue? && d[AutoregressiveNKey].i > 0
    && ApproachKey in d && d[ApproachKey].StrValue? && d[ApproachKey].s in ApproachOptions
    && WeightRecentKey in d && d[WeightRecentKey].StrValue? && d[WeightRecentKey].s in WeightRecentOptions
    && BalanceClassesKey in d && d[BalanceClassesKey].StrValue? && d[BalanceClassesKey].s in BalanceClassesOptions
    && CalibrateProbsKey in d && d[CalibrateProbsKey].StrValue? && d[CalibrateProbsKey].s in CalibrateProbsOptions
  }

  // ---------------------------------------------------------------------------
  // calibrate_probs_skmethod

  /** `calibrate_probs_skmethod(N)`: "sigmoid" for fewer than 200 samples;
      otherwise the sklearn method named by the setting, ValueError for "None". */
  function CalibrateProbsSkMethod(ss: AimodelSS, n: int): (r: Result<string>)
    ensures n < 200 ==> r == Ok("sigmoid")
  {
    if n < 200 then Ok("sigmoid")
    else
      var c :- CalibrateProbs(ss);
      if c == StrValue("CalibratedClassifierCV_Sigmoid") then Ok("sigmoid")
      else if c == StrValue("CalibratedClassifierCV_Isotonic") then Ok("isotonic")
      else Err(ValueError(Show(c)))
  }

  // ---------------------------------------------------------------------------
  // aimodel_ss_test_dict

  /** `x or default` for an optional string: None and "" are both falsy. */
  function OrDefault(x: Option<string>, default: string): (r: string)
    ensures x.Some? && x.value != "" ==> r == x.value
    ensures x.None? || x.value == "" ==> r == default
  {
    if x.Some? && x.value != "" then x.value else default
  }

  /** `default if x is None else x` for an optional integer: 0 is kept. */
  function IfNone(x: Option<int>, default: int): (r: int)
    ensures x.Some? ==> r == x.value
    ensures x.None? ==> r == default
  {
    if x.None? then default else x.value
  }

  /** `aimodel_ss_test_dict`: the six settings, each from its argument or its default. */
  function TestDict(maxNTrain: Option<int>, autoregressiveN: Option<int>, approach: Option<string>,
                    weightRecent: Option<string>, balanceClasses: Option<string>, calibrateProbs: Option<string>)
    : (d: Dict)
    ensures d.Keys == {MaxNTrainKey, AutoregressiveNKey, ApproachKey, WeightRecentKey, BalanceClassesKey, CalibrateProbsKey}
    // integers: None takes the default, any given value (0 included) is kept
    ensures d[MaxNTrainKey] == IntValue(if maxNTrain.Some? then maxNTrain.value else 7)
    ensures d[AutoregressiveNKey] == IntValue(if autoregressiveN.Some? then autoregressiveN.value else 3)
    // strings: None and "" take the default, any other value is kept
    ensures approach.Some? && approach.value != "" ==> d[ApproachKey] == StrValue(approach.value)
    ensures approach == None || approach == Some("") ==> d[ApproachKey] == StrValue("LinearLogistic")
    ensures weightRecent.Some? && weightRecent.value != "" ==> d[WeightRecentKey] == StrValue(weightRecent.value)
    ensures weightRecent == None || weightRecent == Some("") ==> d[WeightRecentKey] == StrValue("10x_5x")
    ensures balanceClasses.Some? && balanceClasses.value != "" ==> d[BalanceClassesKey] == StrValue(balanceClasses.value)
    ensures balanceClasses == None || balanceClasses == Some("") ==> d[BalanceClassesKey] == StrValue("SMOTE")
    ensures calibrateProbs.Some? && calibrateProbs.value != "" ==> d[CalibrateProbsKey] == StrValue(calibrateProbs.value)
    ensures calibrateProbs == None || calibrateProbs == Some("") ==>
      d[CalibrateProbsKey] == StrValue("CalibratedClassifierCV_Sigmoid")
  {
    map[
      MaxNTrainKey := IntValue(IfNone(maxNTrain, 7)),
      AutoregressiveNKey := IntValue(IfNone(autoregressiveN, 3)),
      ApproachKey := StrValue(OrDefault(approach, "LinearLogistic")),
      WeightRecentKey := StrValue(OrDefault(weightRecent, "10x_5x")),
      BalanceClassesKey := StrValue(OrDefault(balanceClasses, "SMOTE")),
      CalibrateProbsKey := StrValue(OrDefault(calibrateProbs, "CalibratedClassifierCV_Sigmoid"))
    ]
  }

  // ---------------------------------------------------------------------------
  // Lemmas

  /** The constructor succeeds exactly on the settings that pass every check. */
  lemma ConstructorAcceptsValid(d: Dict)
    ensures NewAimodelSS(d).Ok? <==> Valid(d)
  {
  }

  /** A non-positive `max_n_train` is the first thing reported. */
  lemma MaxNTrainNotPositive(d: Dict, n: int)
    requires MaxNTrainKey in d && d[MaxNTrainKey] == IntValue(n) && n <= 0
    ensures NewAimodelSS(d) == Err(ValueError(IntToString(n)))
  {
  }

  /** A non-positive `autoregressive_n` is reported once `max_n_train` passes. */
  lemma AutoregressiveNNotPositive(d: Dict, n: int)
    requires MaxNTrainKey in d && d[MaxNTrainKey].IntValue? && d[MaxNTrainKey].i > 0
    requires AutoregressiveNKey in d && d[AutoregressiveNKey] == IntValue(n) && n <= 0
    ensures NewAimodelSS(d) == Err(ValueError(IntToString(n)))
  {
  }

  /** A setting compared with 0 that is not a number raises TypeError. */
  lemma NonNumberIsTypeError(d: Dict)
    requires MaxNTrainKey in d && !d[MaxNTrainKey].IntValue?
    ensures NewAimodelSS(d) == Err(TypeError)
  {
  }

  /** Once both numbers pass, an `approach` outside its list is reported
      with its value. */
  lemma ApproachNotAnOption(d: Dict)
    requires MaxNTrainKey in d && d[MaxNTrainKey].IntValue? && d[MaxNTrainKey].i > 0
    requires AutoregressiveNKey in d && d[AutoregressiveNKey].IntValue? && d[AutoregressiveNKey].i > 0
    requires ApproachKey in d && !(d[ApproachKey].StrValue? && d[ApproachKey].s in ApproachOptions)
    ensures NewAimodelSS(d) == Err(ValueError(Show(d[ApproachKey])))
  {
  }

  /** Once the earlier checks pass, a `weight_recent` outside its list is
      reported with its value. */
  lemma WeightRecentNotAnOption(d: Dict)
    requires MaxNTrainKey in d && d[MaxNTrainKey].IntValue? && d[MaxNTrainKey].i > 0
    requires AutoregressiveNKey in d && d[AutoregressiveNKey].IntValue? && d[AutoregressiveNKey].i > 0
    requires ApproachKey in d && d[ApproachKey].StrValue? && d[ApproachKey].s in ApproachOptions
    requires WeightRecentKey in d && !(d[WeightRecentKey].StrValue? && d[WeightRecentKey].s in WeightRecentOptions)
    ensures NewAimodelSS(d) == Err(ValueError(Show(d[WeightRecentKey])))
  {
  }

  /** Once the earlier checks pass, a `balance_classes` outside its list is
      reported with its value. */
  lemma BalanceClassesNotAnOption(d: Dict)
    requires MaxNTrainKey in d && d[MaxNTrainKey].IntValue? && d[MaxNTrainKey].i > 0
    requires AutoregressiveNKey in d && d[AutoregressiveNKey].IntValue? && d[AutoregressiveNKey].i > 0
    requires ApproachKey in d && d[ApproachKey].StrValue? && d[ApproachKey].s in ApproachOptions
    requires WeightRecentKey in d && d[WeightRecentKey].StrValue? && d[WeightRecentKey].s in WeightRecentOptions
    requires BalanceClassesKey in d
    requires !(d[BalanceClassesKey].StrValue? && d[BalanceClassesKey].s in BalanceClassesOptions)
    ensures NewAimodelSS(d) == Err(ValueError(Show(d[BalanceClassesKey])))
  {
  }

  /** Once the earlier checks pass, a `calibrate_probs` outside its list is
      reported with its value. */
  lemma CalibrateProbsNotAnOption(d: Dict)
    requires MaxNTrainKey in d && d[MaxNTrainKey].IntValue? && d[MaxNTrainKey].i > 0
    requires AutoregressiveNKey in d && d[AutoregressiveNKey].IntValue? && d[AutoregressiveNKey].i > 0
    requires ApproachKey in d && d[ApproachKey].StrValue? && d[ApproachKey].s in ApproachOptions
    requires WeightRecentKey in d && d[WeightRecentKey].StrValue? && d[WeightRecentKey].s in WeightRecentOptions
    requires BalanceClassesKey in d && d[BalanceClassesKey].StrValue? && d[BalanceClassesKey].s in BalanceClassesOptions
    requires CalibrateProbsKey in d
    requires !(d[CalibrateProbsKey].StrValue? && d[CalibrateProbsKey].s in CalibrateProbsOptions)
    ensures NewAimodelSS(d) == Err(ValueError(Show(d[CalibrateProbsKey])))
  {
  }

  /** A missing `max_n_train`, the first key the checks read, raises KeyError
      naming it. */
  lemma MissingSetting(d: Dict)
    requires MaxNTrainKey !in d
    ensures NewAimodelSS(d) == Err(KeyError(MaxNTrainKey))
  {
  }

  /** The accessors of a constructed object return the dictionary's values. */
  lemma AccessorsReturnStored(d: Dict)
    requires NewAimodelSS(d).Ok?
    ensures var ss := NewAimodelSS(d).value;
            && MaxNTrain(ss) == Ok(d[MaxNTrainKey])
            && AutoregressiveN(ss) == Ok(d[AutoregressiveNKey])
            && Approach(ss) == Ok(d[ApproachKey])
            && WeightRecent(ss) == Ok(d[WeightRecentKey])
            && BalanceClasses(ss) == Ok(d[BalanceClassesKey])
            && CalibrateProbs(ss) == Ok(d[CalibrateProbsKey])
  {
    ConstructorAcceptsValid(d);
  }

  /** On a constructed object and 200 samples or more, the method is total
      except for the setting "None", and maps each calibration to its
      sklearn method. */
  lemma CalibrationMapping(d: Dict, n: int)
    requires NewAimodelSS(d).Ok?
    requires n >= 200
    ensures var r := CalibrateProbsSkMethod(NewAimodelSS(d).value, n);
            && (r.Err? <==> d[CalibrateProbsKey] == StrValue("None"))
            && (d[CalibrateProbsKey] == StrValue("CalibratedClassifierCV_Sigmoid") ==> r == Ok("sigmoid"))
            && (d[CalibrateProbsKey] == StrValue("CalibratedClassifierCV_Isotonic") ==> r == Ok("isotonic"))
            && (r.Err? ==> r.error == ValueError("None"))
  {
    ConstructorAcceptsValid(d);
    assert d[CalibrateProbsKey].s in CalibrateProbsOptions;
  }

  /** The dictionary of all defaults passes validation. */
  lemma DefaultsAreValid()
    ensures NewAimodelSS(TestDict(None, None, None, None, None, None)).Ok?
  {
    var d := TestDict(None, None, None, None, None, None);
    assert d[ApproachKey].s == ApproachOptions[0];
    assert d[WeightRecentKey].s == WeightRecentOptions[0];
    assert d[BalanceClassesKey].s == BalanceClassesOptions[0];
    assert d[CalibrateProbsKey].s == CalibrateProbsOptions[0];
    ConstructorAcceptsValid(d);
  }

  /** An explicit 0 is kept, not replaced by the default, and the
      constructor then rejects it. */
  lemma ExplicitZeroIsKept()
    ensures TestDict(Some(0), None, None, None, None, None)[MaxNTrainKey] == IntValue(0)
    ensures NewAimodelSS(TestDict(Some(0), None, None, None, None, None)) == Err(ValueError("0"))
  {
    MaxNTrainNotPositive(TestDict(Some(0), None, None, None, None, None), 0);
    assert IntToString(0) == "0";
  }

  /** An empty string falls back to the default, as None does. */
  lemma EmptyStringTakesDefault(approach: Option<string>)
    requires approach == Some("") || approach == None
    ensures TestDict(None, None, approach, None, None, None) == TestDict(None, None, None, None, None, None)
  {
  }
}

=== FILE: csv_data_store.dfy ===
/** The chunked CSV row store (`CSVDataStore` in pdr_backend/lake/csv_data_store.py).

    Each dataset owns a folder of CSV files holding at most `MaxRowCount`
    rows each. A folder is modelled as the sequence of its files in
    sorted-name order; a file is its name and its rows. */
module CsvDataStore {
  import opened Results
  import opened Seqs
  import opened Rows
  import opened Paths
  import opened CsvNaming

  /** `max_row_count`: the row cap of one chunk file. */
  const MaxRowCount: nat := 1000

  /** One CSV file of a dataset folder. */
  datatype Chunk = Chunk(name: string, rows: seq<Row>)

  /** A dataset folder, files in sorted-name order. */
  type Folder = seq<Chunk>

  /** The store: its base path and one folder per dataset identifier. An
      absent folder reads like an empty one. */
  datatype CsvStore = CsvStore(basePath: string, folders: map<string, Folder>)

  function FolderOf(store: CsvStore, dataset: string): Folder {
    if dataset in store.folders then store.folders[dataset] else []
  }

  /** `_get_folder_path` without the directory creation. */
  function FolderPath(store: CsvStore, dataset: string): string {
    JoinPath(store.basePath, dataset)
  }

  function FileRows(folder: Folder): seq<seq<Row>> {
    seq(|folder|, i requires 0 <= i < |folder| => folder[i].rows)
  }

  /** The rows of every file, concatenated in folder order. */
  function AllRows(folder: Folder): seq<Row> {
    Flatten(FileRows(folder))
  }

  lemma AllRowsAppend(a: Folder, b: Folder)
    ensures AllRows(a + b) == AllRows(a) + AllRows(b)
  {
    assert FileRows(a + b) == FileRows(a) + FileRows(b);
    FlattenAppend(FileRows(a), FileRows(b));
  }

  lemma AllRowsSingle(c: Chunk)
    ensures AllRows([c]) == c.rows
  {
    assert FileRows([c]) == [c.rows];
    FlattenSingle(c.rows);
  }

  // ---------------------------------------------------------------------------
  // Chunking

  /** The slices `data[i : i + 1000]` for `i` in `range(0, len(data), 1000)`. */
  function Chunks<T>(xs: seq<T>): (chunks: seq<seq<T>>)
    ensures forall i :: 0 <= i < |chunks| ==> 0 < |chunks[i]| <= MaxRowCount
    decreases |xs|
  {
    if |xs| == 0 then []
    else if |xs| <= MaxRowCount then [xs]
    else [xs[..MaxRowCount]] + Chunks(xs[MaxRowCount..])
  }

  /** The slices put back together give the input; all of them but the last
      are full, and there are `ceil(len / 1000)` of them. */
  lemma {:induction false} ChunksShape<T>(xs: seq<T>)
    ensures Flatten(Chunks(xs)) == xs
    ensures forall i :: 0 <= i < |Chunks(xs)| - 1 ==> |Chunks(xs)[i]| == MaxRowCount
    ensures |Chunks(xs)| == (|xs| + MaxRowCount - 1) / MaxRowCount
    decreases |xs|
  {
    if |xs| == 0 {
    } else if |xs| <= MaxRowCount {
      FlattenSingle(xs);
    } else {
      var rest := Chunks(xs[MaxRowCount..]);
      ChunksShape(xs[MaxRowCount..]);
      assert Chunks(xs) == [xs[..MaxRowCount]] + rest;
      assert Chunks(xs)[1..] == rest;
      assert xs == xs[..MaxRowCount] + xs[MaxRowCount..];
    }
  }

  /** `_chunk_data`: the slicing loop over `range(0, len(data), 1000)`. */
  method ChunkData(data: seq<Row>) returns (chunks: seq<seq<Row>>)
    ensures chunks == Chunks(data)
    ensures Flatten(chunks) == data
    ensures forall i :: 0 <= i < |chunks| ==> 0 < |chunks[i]| <= MaxRowCount
    ensures forall i :: 0 <= i < |chunks| - 1 ==> |chunks[i]| == MaxRowCount
  {
    chunks := [];
    var i := 0;
    while i < |data|
      invariant 0 <= i
      invariant chunks + Chunks(data[Min(i, |data|)..]) == Chunks(data)
      decreases |data| - i
    {
      var chunk := data[i..i + Min(MaxRowCount, |data| - i)];
      ChunkLoopStep(data, chunks, i);
      chunks := chunks + [chunk];
      i := i + MaxRowCount;
    }
    assert data[Min(i, |data|)..] == [];
    assert chunks == Chunks(data);
    ChunksShape(data);
  }

  /** The invariant of the slicing loop survives one round. */
  lemma ChunkLoopStep<T>(xs: seq<T>, done: seq<seq<T>>, i: nat)
    requires i < |xs|
    requires done + Chunks(xs[i..]) == Chunks(xs)
    ensures (done + [xs[i..i + Min(MaxRowCount, |xs| - i)]]) + Chunks(xs[Min(i + MaxRowCount, |xs|)..]) == Chunks(xs)
  {
    var chunk := xs[i..i + Min(MaxRowCount, |xs| - i)];
    var later := Chunks(xs[Min(i + MaxRowCount, |xs|)..]);
    ChunksStep(xs, i);
    AppendAssociative(done, [chunk], later);
  }

  /** One round of the slicing loop: the chunks from offset `i` are the
      slice at `i` followed by the chunks from `i + 1000`. */
  lemma ChunksStep<T>(xs: seq<T>, i: nat)
    requires i < |xs|
    ensures Chunks(xs[i..]) == [xs[i..i + Min(MaxRowCount, |xs| - i)]] + Chunks(xs[Min(i + MaxRowCount, |xs|)..])
  {
    var tail := xs[i..];
    if |tail| > MaxRowCount {
      assert tail[..MaxRowCount] == xs[i..i + MaxRowCount];
      assert tail[MaxRowCount..] == xs[i + MaxRowCount..];
    } else {
      assert tail == xs[i..i + Min(MaxRowCount, |xs| - i)];
      assert xs[Min(i + MaxRowCount, |xs|)..] == [];
      assert Chunks<T>([]) == [];
    }
  }

  // ---------------------------------------------------------------------------
  // Names of chunk files

  /** The name of a file whose end timestamp is recorded. */
  function ClosedName(dataset: string, rows: seq<Row>): (name: string)
    requires |rows| > 0
  {
    CreateFileName(dataset, rows[0].timestamp, Some(rows[|rows| - 1].timestamp))
  }

  /** The name of a file still accepting rows (`_to_.csv`). */
  function OpenName(dataset: string, rows: seq<Row>): (name: string)
    requires |rows| > 0
  {
    CreateFileName(dataset, rows[0].timestamp, None)
  }

  /** A new chunk file: closed name when it holds `max_row_count` rows. */
  function ChunkFile(dataset: string, rows: seq<Row>): (file: Chunk)
    requires |rows| > 0
    ensures file.rows == rows
  {
    var endTime := if |rows| >= MaxRowCount then Some(rows[|rows| - 1].timestamp) else None;
    Chunk(CreateFileName(dataset, rows[0].timestamp, endTime), rows)
  }

  /** The files the chunk loop of `write` creates for `rows`. */
  function NewChunkFiles(dataset: string, rows: seq<Row>): (files: Folder)
    ensures |files| == |Chunks(rows)|
    ensures forall i :: 0 <= i < |files| ==> files[i] == ChunkFile(dataset, Chunks(rows)[i])
  {
    var chunks := Chunks(rows);
    seq(|chunks|, i requires 0 <= i < |chunks| => ChunkFile(dataset, chunks[i]))
  }

  lemma NewChunkFilesRows(dataset: string, rows: seq<Row>)
    ensures AllRows(NewChunkFiles(dataset, rows)) == rows
  {
    assert FileRows(NewChunkFiles(dataset, rows)) == Chunks(rows);
    ChunksShape(rows);
  }

  // ---------------------------------------------------------------------------
  // write

  /** `_get_last_file_row_count`: None without files. */
  function LastFileRowCount(folder: Folder): (count: Option<nat>)
    ensures count.None? <==> |folder| == 0
  {
    if |folder| == 0 then None else Some(|folder[|folder| - 1].rows|)
  }

  /** The folder after the last file is topped up, and the rows left over. */
  datatype TopUp = TopUp(folder: Folder, rest: seq<Row>)

  /** The first half of `write`: fill the last file up to `max_row_count`
      rows from the head of the (sorted) input and rename it; IndexError
      when the refilled file still has no row to read timestamps from. */
  function TopUpLastFile(folder: Folder, dataset: string, data: seq<Row>): (r: Result<TopUp>)
    ensures r.Err? <==> |folder| > 0 && |folder[|folder| - 1].rows| == 0 && |data| == 0
    ensures r.Ok? ==> |r.value.folder| == |folder|
    ensures |folder| == 0 || |folder[|folder| - 1].rows| >= MaxRowCount ==> r == Ok(TopUp(folder, data))
  {
    match LastFileRowCount(folder)
    case None => Ok(TopUp(folder, data))
    case Some(lastFileRowCount) =>
      if lastFileRowCount < MaxRowCount then
        Refill(folder, dataset, data, Min(MaxRowCount - lastFileRowCount, |data|))
      else Ok(TopUp(folder, data))
  }

  /** The top-up of a last file that is not full, given `remaining_rows`: the
      first `remaining_rows` input rows join the last file, which is renamed
      from its first and last timestamps. */
  function Refill(folder: Folder, dataset: string, data: seq<Row>, remainingRows: nat): (r: Result<TopUp>)
    requires |folder| > 0 && remainingRows <= |data|
    ensures r.Err? <==> |folder[|folder| - 1].rows| == 0 && remainingRows == 0
    ensures r.Ok? ==> |r.value.folder| == |folder|
  {
    var lastFileData := folder[|folder| - 1].rows + data[..remainingRows];
    if |lastFileData| == 0 then Err(IndexError)
    else
      // `to` is empty only when the input ran out first
      var tStartTime := lastFileData[0].timestamp;
      var newName := if |data| >= remainingRows then ClosedName(dataset, lastFileData) else CreateFileName(dataset, tStartTime, None);
      Ok(TopUp(folder[..|folder| - 1] + [Chunk(newName, lastFileData)], data[remainingRows..]))
  }

  /** Topping up moves rows from the input into the last file and loses none. */
  lemma TopUpConserves(folder: Folder, dataset: string, data: seq<Row>)
    requires TopUpLastFile(folder, dataset, data).Ok?
    ensures AllRows(TopUpLastFile(folder, dataset, data).value.folder) + TopUpLastFile(folder, dataset, data).value.rest
      == AllRows(folder) + data
  {
    var t := TopUpLastFile(folder, dataset, data).value;
    if |folder| > 0 && |folder[|folder| - 1].rows| < MaxRowCount {
      var last := folder[|folder| - 1];
      var k := Min(MaxRowCount - |last.rows|, |data|);
      assert LastFileRowCount(folder) == Some(|last.rows|);
      assert TopUpLastFile(folder, dataset, data) == Refill(folder, dataset, data, k);
      assert t.rest == data[k..];
      var last' := t.folder[|folder| - 1];
      assert last'.rows == last.rows + data[..k];
      assert t.folder == folder[..|folder| - 1] + [last'];
      ReplaceLastConserves(folder, last', data, k);
    }
  }

  /** Replacing the last file by one holding its rows and `data[..k]` keeps
      every row of the folder and of `data`, in order. */
  lemma ReplaceLastConserves(folder: Folder, last': Chunk, data: seq<Row>, k: nat)
    requires |folder| > 0 && k <= |data|
    requires last'.rows == folder[|folder| - 1].rows + data[..k]
    ensures AllRows(folder[..|folder| - 1] + [last']) + data[k..] == AllRows(folder) + data
  {
    var init := folder[..|folder| - 1];
    var last := folder[|folder| - 1];
    assert folder == init + [last];
    AllRowsAppend(init, [last]);
    AllRowsSingle(last);
    AllRowsAppend(init, [last']);
    AllRowsSingle(last');
    assert data == data[..k] + data[k..];
  }

  /** `write` on one folder: sort, top up the last file, then write the
      remaining rows as new chunk files. */
  function WriteFolder(folder: Folder, dataset: string, data: seq<Row>): (r: Result<Folder>)
    ensures r.Ok? ==> AllRows(r.value) == AllRows(folder) + SortByTimestamp(data)
    ensures r.Err? <==> |folder| > 0 && |folder[|folder| - 1].rows| == 0 && |data| == 0
  {
    var sorted := SortByTimestamp(data);
    assert |sorted| == |multiset(sorted)| == |data|;
    match TopUpLastFile(folder, dataset, sorted)
    case Err(e) => Err(e)
    case Ok(t) =>
      TopUpConserves(folder, dataset, sorted);
      NewChunkFilesRows(dataset, t.rest);
      AllRowsAppend(t.folder, NewChunkFiles(dataset, t.rest));
      Ok(t.folder + NewChunkFiles(dataset, t.rest))
  }

  /** `write`: appends `data`, sorted by timestamp, to the dataset; no other
      dataset changes. */
  function Write(store: CsvStore, dataset: string, data: seq<Row>): (r: Result<CsvStore>)
    ensures r.Ok? ==> ReadAll(r.value, dataset) == ReadAll(store, dataset) + SortByTimestamp(data)
    ensures r.Ok? ==> r.value.basePath == store.basePath
    ensures r.Ok? ==> forall other :: other != dataset ==> FolderOf(r.value, other) == FolderOf(store, other)
    ensures r.Err? <==>
      (|FolderOf(store, dataset)| > 0 && |data| == 0 &&
       |FolderOf(store, dataset)[|FolderOf(store, dataset)| - 1].rows| == 0)
  {
    match WriteFolder(FolderOf(store, dataset), dataset, data)
    case Err(e) => Err(e)
    case Ok(folder) =>
      var after := CsvStore(store.basePath, store.folders[dataset := folder]);
      assert FolderOf(after, dataset) == folder;
      Ok(after)
  }

  /** The concatenation of each batch sorted on its own. */
  function SortedBatches(batches: seq<seq<Row>>): (sorted: seq<seq<Row>>)
    ensures |sorted| == |batches|
  {
    seq(|batches|, i requires 0 <= i < |batches| => SortByTimestamp(batches[i]))
  }

  /** `bulk_write`: one `write` per batch, stopping at the first failure. */
  function BulkWrite(store: CsvStore, batches: seq<seq<Row>>, dataset: string): (r: Result<CsvStore>)
    ensures r.Ok? ==> r.value.basePath == store.basePath
    decreases |batches|
  {
    if |batches| == 0 then Ok(store)
    else
      match Write(store, dataset, batches[0])
      case Err(e) => Err(e)
      case Ok(next) => BulkWrite(next, batches[1..], dataset)
  }

  /** `bulk_write` with what it leaves in the store when a batch fails: the
      batches before it stay written, and the failing `write` changes
      nothing, since it raises before writing. */
  function BulkWriteOutcome(store: CsvStore, batches: seq<seq<Row>>, dataset: string): (r: Outcome<CsvStore>)
    ensures r.done <= |batches|
    ensures BulkWrite(store, batches[..r.done], dataset) == Ok(r.state)
    ensures r.error.None? <==> BulkWrite(store, batches, dataset).Ok?
    ensures r.error.None? ==> r.done == |batches|
    ensures r.error.Some? ==> r.done < |batches| && Write(r.state, dataset, batches[r.done]) == Err(r.error.value)
    ensures r.error.Some? ==> BulkWrite(store, batches, dataset) == Err(r.error.value)
    decreases |batches|
  {
    if |batches| == 0 then Outcome(store, 0, None)
    else
      match Write(store, dataset, batches[0])
      case Err(e) =>
        assert batches[..0] == [];
        Outcome(store, 0, Some(e))
      case Ok(next) =>
        var rest := BulkWriteOutcome(next, batches[1..], dataset);
        BulkWritePrefix(store, batches, dataset, next, rest.done);
        Outcome(rest.state, rest.done + 1, rest.error)
  }

  /** A prefix of the batches that starts with a successful write. */
  lemma BulkWritePrefix(store: CsvStore, batches: seq<seq<Row>>, dataset: string, next: CsvStore, d: nat)
    requires d < |batches|
    requires Write(store, dataset, batches[0]) == Ok(next)
    ensures BulkWrite(store, batches[..d + 1], dataset) == BulkWrite(next, batches[1..][..d], dataset)
    ensures batches[1..][d..] == batches[d + 1..]
  {
    PrefixTail(batches, d);
    BulkWriteStep(store, batches[..d + 1], dataset, next);
  }

  /** One round of `bulk_write` that succeeds. */
  lemma BulkWriteStep(store: CsvStore, batches: seq<seq<Row>>, dataset: string, next: CsvStore)
    requires |batches| > 0
    requires Write(store, dataset, batches[0]) == Ok(next)
    ensures BulkWrite(store, batches, dataset) == BulkWrite(next, batches[1..], dataset)
  {
  }

  /** After `bulk_write`, `read_all` has gained every batch, each sorted on
      its own, in batch order; other datasets are untouched. */
  lemma {:induction false} BulkWriteAppends(store: CsvStore, batches: seq<seq<Row>>, dataset: string)
    requires BulkWrite(store, batches, dataset).Ok?
    ensures ReadAll(BulkWrite(store, batches, dataset).value, dataset) ==
      ReadAll(store, dataset) + Flatten(SortedBatches(batches))
    ensures forall other :: other != dataset ==>
      FolderOf(BulkWrite(store, batches, dataset).value, other) == FolderOf(store, other)
    decreases |batches|
  {
    if |batches| == 0 {
      assert SortedBatches(batches) == [];
    } else {
      var next := Write(store, dataset, batches[0]).value;
      var rest := batches[1..];
      assert BulkWrite(store, batches, dataset) == BulkWrite(next, rest, dataset);
      BulkWriteAppends(next, rest, dataset);
      SortedBatchesCons(batches);
      AppendAssociative(ReadAll(store, dataset), SortByTimestamp(batches[0]), Flatten(SortedBatches(rest)));
    }
  }

  lemma SortedBatchesCons(batches: seq<seq<Row>>)
    requires |batches| > 0
    ensures Flatten(SortedBatches(batches)) == SortByTimestamp(batches[0]) + Flatten(SortedBatches(batches[1..]))
  {
    assert SortedBatches(batches)[1..] == SortedBatches(batches[1..]);
  }

  // ---------------------------------------------------------------------------
  // Reads and lookups

  /** `read_all`: every file's rows in sorted-name order; empty without files. */
  function ReadAll(store: CsvStore, dataset: string): (rows: seq<Row>)
    ensures |FolderOf(store, dataset)| == 0 ==> rows == []
  {
    AllRows(FolderOf(store, dataset))
  }

  /** `read`: the rows of `read_all` with `start_time <= timestamp <= end_time`,
      or all of them when `filter_args is False`. */
  function Read(store: CsvStore, dataset: string, startTime: int, endTime: int, filterArgs: Option<bool>)
    : (rows: seq<Row>)
    ensures filterArgs == Some(false) ==> rows == ReadAll(store, dataset)
    ensures filterArgs != Some(false) ==> forall x ::
      multiset(rows)[x] == if startTime <= x.timestamp <= endTime then multiset(ReadAll(store, dataset))[x] else 0
    ensures filterArgs != Some(false) ==> forall x ::
      x in rows <==> x in ReadAll(store, dataset) && startTime <= x.timestamp <= endTime
  {
    var data := ReadAll(store, dataset);
    FilterWindowCounts(data, startTime, endTime);
    if |data| == 0 then data
    else if filterArgs == Some(false) then data
    else FilterWindow(data, startTime, endTime)
  }

  /** `_get_last_file_path`: the path of the last file, "" without files. */
  function GetLastFilePath(folderPath: string, folder: Folder): (path: string)
    ensures |folder| == 0 ==> path == ""
    ensures |folder| > 0 ==> BaseName(path) == folder[|folder| - 1].name || '/' in folder[|folder| - 1].name
  {
    if |folder| == 0 then ""
    else
      var name := folder[|folder| - 1].name;
      if '/' !in name then BaseNameOfJoin(folderPath, name); JoinPath(folderPath, name)
      else JoinPath(folderPath, name)
  }

  /** `get_last_timestamp`: the end time in the last file's name when it is
      positive, else the last row of that file; None without files. */
  function GetLastTimestamp(store: CsvStore, dataset: string): (r: Result<Option<int>>)
    ensures |FolderOf(store, dataset)| == 0 ==> r == Ok(None)
  {
    var folder := FolderOf(store, dataset);
    var filePath := GetLastFilePath(FolderPath(store, dataset), folder);
    if |filePath| == 0 then Ok(None)
    else
      var lastRows := folder[|folder| - 1].rows;
      match GetToValue(filePath)
      case Err(e) => Err(e)
      case Ok(toValue) =>
        if toValue.Some? && toValue.value > 0 then Ok(Some(toValue.value))
        else if |lastRows| == 0 then Err(IndexError)
        else Ok(Some(lastRows[|lastRows| - 1].timestamp))
  }

  /** `has_data`: some file of the folder has a positive size. Every file the
      store writes starts with a CSV header line, so a file is never empty on
      disk even with no rows; the model therefore counts files. */
  function HasData(store: CsvStore, dataset: string): (b: bool)
    ensures !b ==> ReadAll(store, dataset) == []
  {
    |FolderOf(store, dataset)| > 0
  }

  /** `delete`: removes the dataset's files and its folder; other datasets
      are untouched, and deleting an absent dataset changes nothing. */
  function Delete(store: CsvStore, dataset: string): (r: CsvStore)
    ensures dataset !in r.folders && FolderOf(r, dataset) == []
    ensures r.basePath == store.basePath
    ensures forall other :: other != dataset ==> FolderOf(r, other) == FolderOf(store, other)
    ensures dataset !in store.folders ==> r == store
  {
    CsvStore(store.basePath, store.folders - {dataset})
  }
}

=== FILE: csv_naming.dfy ===
/** File naming of the chunked CSV row store (pdr_backend/lake/csv_data_store.py):
    `<dataset>_from_<start>_to_<end>.csv` with ten-digit zero-padded
    timestamps and an empty end field for a chunk still accepting rows. */
module CsvNaming {
  import opened Results
  import opened Strings
  import opened Paths
  import opened Seqs

  /** The default `length` of `_pad_with_zeroes`. */
  const PadLength: nat := 10

  /** `_pad_with_zeroes`: `str(number).rjust(length, "0")`. */
  function PadWithZeroes(number: int, length: nat): (padded: string)
    ensures |padded| == Max(length, |IntToString(number)|)
    ensures padded[|padded| - |IntToString(number)|..] == IntToString(number)
    ensures forall i :: 0 <= i < |padded| - |IntToString(number)| ==> padded[i] == '0'
  {
    var s := IntToString(number);
    if |s| >= length then s else Zeros(length - |s|) + s
  }

  /** A padded number consists of digits and at most a minus sign. */
  lemma PadCharacters(number: int, length: nat)
    ensures Numeral(PadWithZeroes(number, length))
  {
    var s := IntToString(number);
    IntToStringNumeral(number);
    if |s| < length {
      var z := Zeros(length - |s|);
      var padded := z + s;
      forall i | 0 <= i < |padded|
        ensures IsDigit(padded[i]) || padded[i] == '-'
      {
        if i >= |z| {
          assert padded[i] == s[i - |z|];
        }
      }
    }
  }

  /** Padding a non-negative number and parsing it back gives the number. */
  lemma PadRoundTrip(number: int, length: nat)
    requires number >= 0
    ensures AllDigits(PadWithZeroes(number, length))
    ensures ParseInt(PadWithZeroes(number, length)) == Ok(number)
  {
    var s := NatToString(number);
    DigitsOfNatToString(number);
    if |s| < length {
      DigitsIgnoreLeadingZeros(length - |s|, s);
    }
    var padded := PadWithZeroes(number, length);
    assert IsDigit(padded[0]);
  }

  /** The end field of a file name: empty for `None` and for 0, as `if end_time`. */
  function EndField(endTime: Option<int>): (r: string)
    ensures Numeral(r)
  {
    if endTime.Some? && endTime.value != 0 then
      PadCharacters(endTime.value, PadLength);
      PadWithZeroes(endTime.value, PadLength)
    else ""
  }

  /** `_create_file_name`. */
  function CreateFileName(dataset: string, startTime: int, endTime: Option<int>): (name: string)
    ensures |name| >= |dataset| + 4
    ensures name[..|dataset|] == dataset
    ensures name[|name| - 4..] == ".csv"
  {
    dataset + "_from_" + PadWithZeroes(startTime, PadLength) + "_to_" + EndField(endTime) + ".csv"
  }

  /** The `_`-separated fields of a file's base name. */
  function Fields(path: string): (fields: seq<string>) {
    Split(BaseName(path), '_')
  }

  /** `_get_to_value`: the field three places after the first field that
      contains "from", with ".csv" removed; None when there is no such field,
      it is out of range, or it is empty; ValueError when it is not a number. */
  function GetToValue(path: string): (r: Result<Option<int>>)
    ensures (forall j :: 0 <= j < |Fields(path)| ==> !Contains(Fields(path)[j], "from")) ==> r == Ok(None)
    ensures r.Ok? && r.value.Some? ==> exists j :: 0 <= j < |Fields(path)| - 3 && Contains(Fields(path)[j], "from")
    ensures r.Err? ==> r.error.ValueError?
  {
    var fields := Fields(path);
    match FirstContaining(fields, "from")
    case None => Ok(None)
    case Some(i) =>
      var toIndex := i + 3;
      if toIndex >= |fields| then Ok(None)
      else
        var toValue := RemoveAll(fields[toIndex], ".csv");
        if toValue == "" then Ok(None)
        else
          match ParseInt(toValue)
          case Err(e) => Err(e)
          case Ok(v) => Ok(Some(v))
  }

  /** `_get_from_value`: the field right after the first field that contains
      "from"; ValueError naming the path when no field contains it. */
  function GetFromValue(path: string): (r: Result<int>)
    ensures (forall j :: 0 <= j < |Fields(path)| ==> !Contains(Fields(path)[j], "from")) ==>
      r == Err(ValueError(path))
    ensures r.Ok? ==> exists j :: 0 <= j < |Fields(path)| - 1 && Contains(Fields(path)[j], "from")
  {
    var fields := Fields(path);
    match FirstContaining(fields, "from")
    case None => Err(ValueError(path))
    case Some(i) =>
      if i + 1 < |fields| then ParseInt(fields[i + 1]) else Err(IndexError)
  }

  /** A dataset id whose names parse back: no `/`, and no `_`-separated
      field that contains "from". */
  predicate ParsableDatasetId(dataset: string) {
    && '/' !in dataset
    && forall j :: 0 <= j < |Split(dataset, '_')| ==> !Contains(Split(dataset, '_')[j], "from")
  }

  /** The literal parts of a file name, regrouped around its separators. */
  lemma NameShape(dataset: string, p: string, e: string)
    ensures dataset + "_from_" + p + "_to_" + e + ".csv" ==
      dataset + ['_'] + ("from" + ['_'] + (p + ['_'] + ("to" + ['_'] + (e + ".csv"))))
  {
    assert "_from_" == ['_'] + "from" + ['_'];
    assert "_to_" == ['_'] + "to" + ['_'];
  }

  lemma {:induction false} FieldsOfShape(dataset: string, p: string, e: string)
    requires '_' !in p && '_' !in e
    ensures Split(dataset + ['_'] + ("from" + ['_'] + (p + ['_'] + ("to" + ['_'] + (e + ".csv")))), '_') ==
      Split(dataset, '_') + ["from", p, "to", e + ".csv"]
  {
    var ext := e + ".csv";
    assert '_' !in ext;
    var tail3 := "to" + ['_'] + ext;
    var tail2 := p + ['_'] + tail3;
    var tail1 := "from" + ['_'] + tail2;
    SplitWithoutSeparator("to", '_');
    SplitWithoutSeparator(ext, '_');
    SplitWithoutSeparator(p, '_');
    SplitWithoutSeparator("from", '_');
    SplitAround("to", '_', ext);
    assert Split(tail3, '_') == ["to", ext];
    SplitAround(p, '_', tail3);
    assert Split(tail2, '_') == [p, "to", ext];
    SplitAround("from", '_', tail2);
    assert Split(tail1, '_') == ["from", p, "to", ext];
    SplitAround(dataset, '_', tail1);
  }

  /** The fields of a file name: the dataset's own fields, then "from", the
      padded start, "to", and the end field with the extension. */
  lemma FileNameFields(dataset: string, startTime: int, endTime: Option<int>)
    ensures Split(CreateFileName(dataset, startTime, endTime), '_') ==
      Split(dataset, '_') + ["from", PadWithZeroes(startTime, PadLength), "to", EndField(endTime) + ".csv"]
    ensures '/' !in dataset ==> '/' !in CreateFileName(dataset, startTime, endTime)
  {
    var p := PadWithZeroes(startTime, PadLength);
    var e := EndField(endTime);
    PadCharacters(startTime, PadLength);
    NumeralHasNo(p, '_');
    NumeralHasNo(e, '_');
    NameShape(dataset, p, e);
    FieldsOfShape(dataset, p, e);
    if '/' !in dataset {
      FileNameNoSlash(dataset, startTime, endTime);
    }
  }

  /** A name built from a dataset id without `/` has none either. */
  lemma FileNameNoSlash(dataset: string, startTime: int, endTime: Option<int>)
    requires '/' !in dataset
    ensures '/' !in CreateFileName(dataset, startTime, endTime)
  {
    var p := PadWithZeroes(startTime, PadLength);
    var e := EndField(endTime);
    PadCharacters(startTime, PadLength);
    NumeralHasNo(p, '/');
    NumeralHasNo(e, '/');
    assert '/' !in "_from_" && '/' !in "_to_" && '/' !in ".csv";
  }

  /** The fields of a file name joined onto a directory. */
  lemma JoinedFileNameFields(dir: string, dataset: string, startTime: int, endTime: Option<int>)
    requires '/' !in dataset
    ensures Fields(JoinPath(dir, CreateFileName(dataset, startTime, endTime))) ==
      Split(dataset, '_') + ["from", PadWithZeroes(startTime, PadLength), "to", EndField(endTime) + ".csv"]
  {
    FileNameFields(dataset, startTime, endTime);
    BaseNameOfJoin(dir, CreateFileName(dataset, startTime, endTime));
  }

  /** The first field containing "from" in a file name of a parsable dataset
      is the one the name puts there. */
  lemma FromFieldIndex(dir: string, dataset: string, startTime: int, endTime: Option<int>)
    requires ParsableDatasetId(dataset)
    ensures Fields(JoinPath(dir, CreateFileName(dataset, startTime, endTime))) ==
      Split(dataset, '_') + ["from", PadWithZeroes(startTime, PadLength), "to", EndField(endTime) + ".csv"]
    ensures FirstContaining(Fields(JoinPath(dir, CreateFileName(dataset, startTime, endTime))), "from")
      == Some(|Split(dataset, '_')|)
  {
    JoinedFileNameFields(dir, dataset, startTime, endTime);
    var rest := ["from", PadWithZeroes(startTime, PadLength), "to", EndField(endTime) + ".csv"];
    ContainsItself("from");
    FirstContainingAt(Split(dataset, '_'), rest, "from");
  }

  /** `_get_from_value` recovers the start time of every name `_create_file_name` builds. */
  lemma FromValueRoundTrip(dir: string, dataset: string, startTime: int, endTime: Option<int>)
    requires ParsableDatasetId(dataset)
    requires startTime >= 0
    ensures GetFromValue(JoinPath(dir, CreateFileName(dataset, startTime, endTime))) == Ok(startTime)
  {
    FromFieldIndex(dir, dataset, startTime, endTime);
    PadRoundTrip(startTime, PadLength);
  }

  /** `_get_to_value` recovers a non-zero end time, and reports an open name
      (end `None` or 0) as `None`. */
  lemma ToValueRoundTrip(dir: string, dataset: string, startTime: int, endTime: Option<int>)
    requires ParsableDatasetId(dataset)
    requires endTime.Some? ==> endTime.value >= 0
    ensures GetToValue(JoinPath(dir, CreateFileName(dataset, startTime, endTime))) ==
      Ok(if endTime.Some? && endTime.value != 0 then Some(endTime.value) else None)
  {
    FromFieldIndex(dir, dataset, startTime, endTime);
    var e := EndField(endTime);
    if endTime.Some? && endTime.value != 0 {
      PadRoundTrip(endTime.value, PadLength);
      assert '.' !in e;
    }
    RemoveTrailing(e, ".csv");
  }

  /** An end field that is not a number, such as the `x` of
      `d_from_1_to_x.csv`, makes `int()` raise ValueError naming it. */
  lemma ToValueNotANumber(path: string, i: nat)
    requires FirstContaining(Fields(path), "from") == Some(i)
    requires i + 3 < |Fields(path)|
    requires var v := RemoveAll(Fields(path)[i + 3], ".csv"); v != "" && !IsDigit(v[|v| - 1])
    ensures GetToValue(path) == Err(ValueError(RemoveAll(Fields(path)[i + 3], ".csv")))
  {
    var v := RemoveAll(Fields(path)[i + 3], ".csv");
    assert !AllDigits(v);
    assert |v| > 1 ==> !AllDigits(v[1..]) by {
      if |v| > 1 { assert v[1..][|v| - 2] == v[|v| - 1]; }
    }
  }

  /** With no field containing "from", `_get_from_value` raises ValueError
      and `_get_to_value` reports no end time. */
  lemma MissingFromField(path: string)
    requires forall j :: 0 <= j < |Fields(path)| ==> !Contains(Fields(path)[j], "from")
    ensures GetFromValue(path) == Err(ValueError(path))
    ensures GetToValue(path) == Ok(None)
  {
  }

  /** The parsers use the first field containing "from": when the last
      `_`-separated field of the dataset id (say "x_fromage") is the first
      one to contain "from", `_get_from_value` reads the literal "from" of
      the name as the start time and raises ValueError. */
  lemma FirstFromFieldWins(dir: string, dataset: string, startTime: int, endTime: Option<int>)
    requires '/' !in dataset
    requires Contains(Split(dataset, '_')[|Split(dataset, '_')| - 1], "from")
    requires forall j :: 0 <= j < |Split(dataset, '_')| - 1 ==> !Contains(Split(dataset, '_')[j], "from")
    ensures GetFromValue(JoinPath(dir, CreateFileName(dataset, startTime, endTime))) ==
      Err(ValueError("from"))
  {
    var f := Split(dataset, '_');
    var n := |f| - 1;
    var rest := ["from", PadWithZeroes(startTime, PadLength), "to", EndField(endTime) + ".csv"];
    var path := JoinPath(dir, CreateFileName(dataset, startTime, endTime));
    JoinedFileNameFields(dir, dataset, startTime, endTime);
    assert Fields(path) == f + rest;
    LastFieldFirst(f, rest, "from");
    assert Fields(path)[n + 1] == "from";
    FromIsNotANumber();
  }

  /** A field list whose last field is the first to contain `pat`, followed
      by more fields. */
  lemma LastFieldFirst(f: seq<string>, rest: seq<string>, pat: string)
    requires |f| > 0 && Contains(f[|f| - 1], pat)
    requires forall j :: 0 <= j < |f| - 1 ==> !Contains(f[j], pat)
    ensures FirstContaining(f + rest, pat) == Some(|f| - 1)
  {
    var n := |f| - 1;
    assert f + rest == f[..n] + ([f[n]] + rest);
    FirstContainingAt(f[..n], [f[n]] + rest, pat);
  }

  /** The word "from" is not a number. */
  lemma FromIsNotANumber()
    ensures ParseInt("from") == Err(ValueError("from"))
  {
    assert !IsDigit("from"[0]);
  }
}

=== FILE: csv_store_properties.dfy ===
/** Properties of the chunked CSV store that relate several operations:
    the folder shape every `write` keeps, the names it gives to files, and
    what the lookups report about a folder of that shape. */
module CsvStoreProperties {
  import opened Results
  import opened Seqs
  import opened Rows
  import opened Paths
  import opened CsvNaming
  import opened CsvDataStore

  // ---------------------------------------------------------------------------
  // The folder shape

  /** A file as `write` leaves it: between 1 and `max_row_count` rows, named
      after its first and last timestamp, or open (`_to_.csv`) while it is
      not full. */
  predicate WellNamed(dataset: string, c: Chunk) {
    && 0 < |c.rows| <= MaxRowCount
    && (c.name == ClosedName(dataset, c.rows)
        || (|c.rows| < MaxRowCount && c.name == OpenName(dataset, c.rows)))
  }

  /** Every file is well named. */
  predicate AllWellNamed(dataset: string, folder: Folder) {
    forall i :: 0 <= i < |folder| ==> WellNamed(dataset, folder[i])
  }

  /** Every file but the last is full. */
  predicate FullButLast(folder: Folder) {
    forall i :: 0 <= i < |folder| - 1 ==> |folder[i].rows| == MaxRowCount
  }

  /** The shape `write` keeps: every file well named, every file but the last full. */
  predicate ChunkInvariant(dataset: string, folder: Folder) {
    AllWellNamed(dataset, folder) && FullButLast(folder)
  }

  /** The files the chunk loop writes have the folder shape. */
  lemma NewChunkFilesInvariant(dataset: string, rows: seq<Row>)
    ensures ChunkInvariant(dataset, NewChunkFiles(dataset, rows))
  {
    var files := NewChunkFiles(dataset, rows);
    ChunksShape(rows);
    forall i | 0 <= i < |files|
      ensures WellNamed(dataset, files[i])
    {
      assert files[i] == ChunkFile(dataset, Chunks(rows)[i]);
    }
  }

  /** Two well-shaped folders line up when the first ends in a full file. */
  lemma InvariantAppend(dataset: string, a: Folder, b: Folder)
    requires ChunkInvariant(dataset, a) && ChunkInvariant(dataset, b)
    requires |a| == 0 || |b| == 0 || |a[|a| - 1].rows| == MaxRowCount
    ensures ChunkInvariant(dataset, a + b)
  {
    WellNamedAppend(dataset, a, b);
    FullButLastAppend(a, b);
  }

  lemma WellNamedAppend(dataset: string, a: Folder, b: Folder)
    requires AllWellNamed(dataset, a) && AllWellNamed(dataset, b)
    ensures AllWellNamed(dataset, a + b)
  {
    var ab := a + b;
    forall i | 0 <= i < |ab|
      ensures WellNamed(dataset, ab[i])
    {
      if i < |a| { assert ab[i] == a[i]; } else { assert ab[i] == b[i - |a|]; }
    }
  }

  lemma FullButLastAppend(a: Folder, b: Folder)
    requires FullButLast(a) && FullButLast(b)
    requires |a| == 0 || |b| == 0 || |a[|a| - 1].rows| == MaxRowCount
    ensures FullButLast(a + b)
  {
    var ab := a + b;
    forall i | 0 <= i < |ab| - 1
      ensures |ab[i].rows| == MaxRowCount
    {
      if i < |a| { assert ab[i] == a[i]; } else { assert ab[i] == b[i - |a|]; }
    }
  }

  // ---------------------------------------------------------------------------
  // Topping up the last file

  /** Topping up a last file that is not full moves the first
      `min(1000 - count, len(data))` input rows into it, and the refilled
      file always gets a closed name, full or not: the end timestamp is
      chosen when `len(data) >= remaining_rows`, and `remaining_rows` was
      clamped to `len(data)`. */
  lemma TopUpShape(folder: Folder, dataset: string, data: seq<Row>)
    requires |folder| > 0 && |folder[|folder| - 1].rows| < MaxRowCount
    requires |folder[|folder| - 1].rows| > 0 || |data| > 0
    ensures |RefilledRows(folder, data)| <= MaxRowCount
    ensures |data| > RefillCount(folder, data) ==> |RefilledRows(folder, data)| == MaxRowCount
    ensures TopUpLastFile(folder, dataset, data) ==
      Ok(TopUp(folder[..|folder| - 1] + [Chunk(ClosedName(dataset, RefilledRows(folder, data)), RefilledRows(folder, data))],
               data[RefillCount(folder, data)..]))
  {
    TopUpIsRefill(folder, dataset, data);
    RefillShape(folder, dataset, data, RefillCount(folder, data));
  }

  /** Below 1000 rows, topping up is `Refill` with the clamped count. */
  lemma TopUpIsRefill(folder: Folder, dataset: string, data: seq<Row>)
    requires |folder| > 0 && |folder[|folder| - 1].rows| < MaxRowCount
    ensures TopUpLastFile(folder, dataset, data) == Refill(folder, dataset, data, RefillCount(folder, data))
  {
    var count := |folder[|folder| - 1].rows|;
    assert LastFileRowCount(folder) == Some(count);
    assert RefillCount(folder, data) == Min(MaxRowCount - count, |data|);
  }

  /** What `Refill` leaves: earlier files as they were, the last one holding
      its rows and the first `k` input rows under a closed name, the rest of
      the input left over. */
  lemma RefillShape(folder: Folder, dataset: string, data: seq<Row>, k: nat)
    requires |folder| > 0 && k <= |data|
    requires |folder[|folder| - 1].rows| > 0 || k > 0
    ensures var rows := folder[|folder| - 1].rows + data[..k];
            Refill(folder, dataset, data, k) ==
              Ok(TopUp(folder[..|folder| - 1] + [Chunk(ClosedName(dataset, rows), rows)], data[k..]))
  {
  }

  /** `remaining_rows` after the clamp: how many input rows a last file that
      is not full takes. */
  function RefillCount(folder: Folder, data: seq<Row>): (k: nat)
    requires |folder| > 0 && |folder[|folder| - 1].rows| < MaxRowCount
    ensures k <= |data| && |folder[|folder| - 1].rows| + k <= MaxRowCount
  {
    Min(MaxRowCount - |folder[|folder| - 1].rows|, |data|)
  }

  /** The rows of the refilled last file. */
  function RefilledRows(folder: Folder, data: seq<Row>): seq<Row>
    requires |folder| > 0 && |folder[|folder| - 1].rows| < MaxRowCount
  {
    folder[|folder| - 1].rows + data[..RefillCount(folder, data)]
  }

  /** The last file receives at most `1000 - count` rows; a full last file
      and every earlier file are left as they are. */
  lemma TopUpBounded(folder: Folder, dataset: string, data: seq<Row>)
    requires TopUpLastFile(folder, dataset, data).Ok?
    requires |folder| > 0
    ensures var t := TopUpLastFile(folder, dataset, data).value;
            var count := |folder[|folder| - 1].rows|;
            && t.folder[..|folder| - 1] == folder[..|folder| - 1]
            && |t.folder[|folder| - 1].rows| <= Max(count, MaxRowCount)
            && |t.folder[|folder| - 1].rows| - count == |data| - |t.rest|
            && (count >= MaxRowCount ==> t.folder[|folder| - 1] == folder[|folder| - 1])
  {
    if |folder[|folder| - 1].rows| < MaxRowCount {
      TopUpShape(folder, dataset, data);
    }
  }

  // ---------------------------------------------------------------------------
  // write keeps the shape

  /** Every file of a well-shaped folder holds a row, so `write` cannot fail
      on it, and the folder it leaves is well shaped again. */
  lemma WriteKeepsInvariant(folder: Folder, dataset: string, data: seq<Row>)
    requires ChunkInvariant(dataset, folder)
    ensures WriteFolder(folder, dataset, data).Ok?
    ensures ChunkInvariant(dataset, WriteFolder(folder, dataset, data).value)
  {
    var sorted := SortByTimestamp(data);
    TopUpKeepsInvariant(folder, dataset, sorted);
    var t := TopUpLastFile(folder, dataset, sorted).value;
    WriteFolderParts(folder, dataset, data);
    NewChunkFilesInvariant(dataset, t.rest);
    InvariantAppend(dataset, t.folder, NewChunkFiles(dataset, t.rest));
  }

  /** `write` is the top-up followed by the chunk files of what is left. */
  lemma WriteFolderParts(folder: Folder, dataset: string, data: seq<Row>)
    requires TopUpLastFile(folder, dataset, SortByTimestamp(data)).Ok?
    ensures var t := TopUpLastFile(folder, dataset, SortByTimestamp(data)).value;
            WriteFolder(folder, dataset, data) == Ok(t.folder + NewChunkFiles(dataset, t.rest))
  {
  }

  /** Topping up a well-shaped folder succeeds and keeps its shape; rows are
      left over only once the last file is full. */
  lemma TopUpKeepsInvariant(folder: Folder, dataset: string, data: seq<Row>)
    requires ChunkInvariant(dataset, folder)
    ensures TopUpLastFile(folder, dataset, data).Ok?
    ensures var t := TopUpLastFile(folder, dataset, data).value;
            && ChunkInvariant(dataset, t.folder)
            && (|t.folder| == 0 || |t.rest| == 0 || |t.folder[|t.folder| - 1].rows| == MaxRowCount)
  {
    if |folder| > 0 && |folder[|folder| - 1].rows| < MaxRowCount {
      assert WellNamed(dataset, folder[|folder| - 1]);
      TopUpShape(folder, dataset, data);
      RefillKeepsInvariant(folder, dataset, data);
    } else if |folder| > 0 {
      assert WellNamed(dataset, folder[|folder| - 1]);
    }
  }

  /** The refilled last file, closed and holding at most 1000 rows, fits the shape. */
  lemma RefillKeepsInvariant(folder: Folder, dataset: string, data: seq<Row>)
    requires ChunkInvariant(dataset, folder)
    requires |folder| > 0 && 0 < |folder[|folder| - 1].rows| < MaxRowCount
    ensures var rows' := RefilledRows(folder, data);
            ChunkInvariant(dataset, folder[..|folder| - 1] + [Chunk(ClosedName(dataset, rows'), rows')])
  {
    var rows' := RefilledRows(folder, data);
    var init := folder[..|folder| - 1];
    var last' := Chunk(ClosedName(dataset, rows'), rows');
    assert ChunkInvariant(dataset, init);
    assert WellNamed(dataset, last');
    assert ChunkInvariant(dataset, [last']);
    InvariantAppend(dataset, init, [last']);
  }

  /** The same for the whole store: a write into a well-shaped folder succeeds
      and keeps the folder well shaped. */
  lemma StoreWriteKeepsInvariant(store: CsvStore, dataset: string, data: seq<Row>)
    requires ChunkInvariant(dataset, FolderOf(store, dataset))
    ensures Write(store, dataset, data).Ok?
    ensures ChunkInvariant(dataset, FolderOf(Write(store, dataset, data).value, dataset))
  {
    WriteKeepsInvariant(FolderOf(store, dataset), dataset, data);
  }

  /** Writing into an empty folder is exactly the chunk loop over the sorted
      input: `ceil(n / 1000)` files, all full but the last, each closed iff
      full. For 1700 rows that is a closed file of 1000 rows and an open one
      of 700. */
  lemma WriteIntoEmptyFolder(dataset: string, data: seq<Row>)
    ensures WriteFolder([], dataset, data) == Ok(NewChunkFiles(dataset, SortByTimestamp(data)))
    ensures |WriteFolder([], dataset, data).value| == (|data| + MaxRowCount - 1) / MaxRowCount
  {
    var sorted := SortByTimestamp(data);
    assert |sorted| == |multiset(sorted)| == |data|;
    assert TopUpLastFile([], dataset, sorted) == Ok(TopUp([], sorted));
    WriteFolderParts([], dataset, data);
    assert [] + NewChunkFiles(dataset, sorted) == NewChunkFiles(dataset, sorted);
    ChunksShape(sorted);
  }

  // ---------------------------------------------------------------------------
  // Names carry what they promise

  /** A new chunk file's name carries an end timestamp iff the chunk is full,
      and the start timestamp it carries is the chunk's first one. */
  lemma ChunkFileNameParses(dir: string, dataset: string, rows: seq<Row>)
    requires ParsableDatasetId(dataset)
    requires |rows| > 0 && rows[0].timestamp >= 0 && rows[|rows| - 1].timestamp > 0
    ensures GetFromValue(JoinPath(dir, ChunkFile(dataset, rows).name)) == Ok(rows[0].timestamp)
    ensures GetToValue(JoinPath(dir, ChunkFile(dataset, rows).name)).Ok?
    ensures GetToValue(JoinPath(dir, ChunkFile(dataset, rows).name)).value.Some? <==> |rows| >= MaxRowCount
    ensures |rows| >= MaxRowCount ==>
      GetToValue(JoinPath(dir, ChunkFile(dataset, rows).name)) == Ok(Some(rows[|rows| - 1].timestamp))
  {
    var endTime := if |rows| >= MaxRowCount then Some(rows[|rows| - 1].timestamp) else None;
    FromValueRoundTrip(dir, dataset, rows[0].timestamp, endTime);
    ToValueRoundTrip(dir, dataset, rows[0].timestamp, endTime);
  }

  /** The last row of a folder whose last file has rows is that file's last row. */
  lemma AllRowsLast(folder: Folder)
    requires |folder| > 0 && |folder[|folder| - 1].rows| > 0
    ensures |AllRows(folder)| > 0
    ensures AllRows(folder)[|AllRows(folder)| - 1] == folder[|folder| - 1].rows[|folder[|folder| - 1].rows| - 1]
  {
    var init := folder[..|folder| - 1];
    var last := folder[|folder| - 1];
    assert folder == init + [last];
    AllRowsAppend(init, [last]);
    AllRowsSingle(last);
  }

  /** On a well-shaped folder with non-negative timestamps in its last file,
      `get_last_timestamp` reports the timestamp of the last row `read_all`
      returns, whether it reads it from the name or from the file. */
  lemma LastTimestampIsLastRow(store: CsvStore, dataset: string)
    requires ParsableDatasetId(dataset)
    requires ChunkInvariant(dataset, FolderOf(store, dataset))
    requires |FolderOf(store, dataset)| > 0
    requires var last := FolderOf(store, dataset)[|FolderOf(store, dataset)| - 1];
             forall k :: 0 <= k < |last.rows| ==> last.rows[k].timestamp >= 0
    ensures |ReadAll(store, dataset)| > 0
    ensures GetLastTimestamp(store, dataset) ==
      Ok(Some(ReadAll(store, dataset)[|ReadAll(store, dataset)| - 1].timestamp))
  {
    var folder := FolderOf(store, dataset);
    var last := folder[|folder| - 1];
    var dir := FolderPath(store, dataset);
    assert WellNamed(dataset, last);
    AllRowsLast(folder);
    assert ReadAll(store, dataset) == AllRows(folder);
    LastNameEndValue(dir, dataset, last);
    var path := GetLastFilePath(dir, folder);
    assert path == JoinPath(dir, last.name);
    JoinPathEndsWithName(dir, last.name);
    assert |path| > 0;
    LastTimestampOfPath(store, dataset, path);
  }

  /** `get_last_timestamp` of a folder whose last path has a parsable end
      field. */
  lemma LastTimestampOfPath(store: CsvStore, dataset: string, path: string)
    requires |FolderOf(store, dataset)| > 0
    requires path == GetLastFilePath(FolderPath(store, dataset), FolderOf(store, dataset)) && |path| > 0
    requires GetToValue(path).Ok?
    requires |FolderOf(store, dataset)[|FolderOf(store, dataset)| - 1].rows| > 0
    ensures var t := GetToValue(path).value;
            var rows := FolderOf(store, dataset)[|FolderOf(store, dataset)| - 1].rows;
            GetLastTimestamp(store, dataset) ==
              Ok(Some(if t.Some? && t.value > 0 then t.value else rows[|rows| - 1].timestamp))
  {
  }

  /** The end field of a well-named file parses, and a positive end value
      is the timestamp of the file's last row. */
  lemma LastNameEndValue(dir: string, dataset: string, last: Chunk)
    requires ParsableDatasetId(dataset)
    requires WellNamed(dataset, last)
    requires forall k :: 0 <= k < |last.rows| ==> last.rows[k].timestamp >= 0
    ensures '/' !in last.name
    ensures GetToValue(JoinPath(dir, last.name)).Ok?
    ensures var t := GetToValue(JoinPath(dir, last.name)).value;
            t.Some? && t.value > 0 ==> t.value == last.rows[|last.rows| - 1].timestamp
  {
    var start := last.rows[0].timestamp;
    var end := last.rows[|last.rows| - 1].timestamp;
    if last.name == ClosedName(dataset, last.rows) {
      FileNameNoSlash(dataset, start, Some(end));
      ToValueRoundTrip(dir, dataset, start, Some(end));
    } else {
      FileNameNoSlash(dataset, start, None);
      ToValueRoundTrip(dir, dataset, start, None);
    }
  }

  // ---------------------------------------------------------------------------
  // has_data, read and delete

  /** A successful write of at least one row leaves the dataset with data. */
  lemma HasDataAfterWrite(store: CsvStore, dataset: string, data: seq<Row>)
    requires Write(store, dataset, data).Ok?
    requires |data| > 0
    ensures HasData(Write(store, dataset, data).value, dataset)
    ensures |ReadAll(Write(store, dataset, data).value, dataset)| >= |data|
  {
    var after := Write(store, dataset, data).value;
    var sorted := SortByTimestamp(data);
    assert |sorted| == |multiset(sorted)| == |data|;
    assert |ReadAll(after, dataset)| == |ReadAll(store, dataset)| + |data|;
  }

  /** On a well-shaped folder, having files and having rows coincide. */
  lemma HasDataIffRows(store: CsvStore, dataset: string)
    requires ChunkInvariant(dataset, FolderOf(store, dataset))
    ensures HasData(store, dataset) <==> |ReadAll(store, dataset)| > 0
  {
    var folder := FolderOf(store, dataset);
    if |folder| > 0 {
      assert WellNamed(dataset, folder[|folder| - 1]);
      AllRowsLast(folder);
    }
  }

  /** After `delete` the dataset has no files, no rows and no last timestamp. */
  lemma NothingAfterDelete(store: CsvStore, dataset: string)
    ensures !HasData(Delete(store, dataset), dataset)
    ensures ReadAll(Delete(store, dataset), dataset) == []
    ensures GetLastTimestamp(Delete(store, dataset), dataset) == Ok(None)
  {
  }

  /** Reading a window after a write returns the window of the old rows
      followed by the window of the new rows in timestamp order. */
  lemma ReadAfterWrite(store: CsvStore, dataset: string, data: seq<Row>, st: int, fin: int)
    requires |data| > 0 || |FolderOf(store, dataset)| == 0 ||
             |FolderOf(store, dataset)[|FolderOf(store, dataset)| - 1].rows| > 0
    ensures Read(Write(store, dataset, data).value, dataset, st, fin, Some(true)) ==
      Read(store, dataset, st, fin, Some(true)) + FilterWindow(SortByTimestamp(data), st, fin)
  {
    var after := Write(store, dataset, data).value;
    ReadIsWindow(store, dataset, st, fin);
    ReadIsWindow(after, dataset, st, fin);
    FilterWindowAppend(ReadAll(store, dataset), SortByTimestamp(data), st, fin);
  }

  /** A filtered read is the window of `read_all`, also when that is empty. */
  lemma ReadIsWindow(store: CsvStore, dataset: string, st: int, fin: int)
    ensures Read(store, dataset, st, fin, Some(true)) == FilterWindow(ReadAll(store, dataset), st, fin)
  {
    if |ReadAll(store, dataset)| == 0 {
      assert FilterWindow(ReadAll(store, dataset), st, fin) == [];
    }
  }

  /** Batches written in time order keep the whole dataset in time order:
      when every stored row is no later than every new row, `read_all` is
      sorted after the write. */
  lemma WriteKeepsTimeOrder(store: CsvStore, dataset: string, data: seq<Row>)
    requires Write(store, dataset, data).Ok?
    requires Sorted(ReadAll(store, dataset))
    requires forall i, j :: 0 <= i < |ReadAll(store, dataset)| && 0 <= j < |data| ==>
      ReadAll(store, dataset)[i].timestamp <= data[j].timestamp
    ensures Sorted(ReadAll(Write(store, dataset, data).value, dataset))
  {
    var a := ReadAll(store, dataset);
    var b := SortByTimestamp(data);
    forall j | 0 <= j < |b|
      ensures b[j] in multiset(data)
    {
      assert b[j] in multiset(b);
    }
    SortedAppend(a, b);
  }

  /** Two sorted runs, the first no later than the second, make a sorted run. */
  lemma SortedAppend(a: seq<Row>, b: seq<Row>)
    requires Sorted(a) && Sorted(b)
    requires forall i, j :: 0 <= i < |a| && 0 <= j < |b| ==> a[i].timestamp <= b[j].timestamp
    ensures Sorted(a + b)
  {
  }
}

=== FILE: gql_data_factory.dfy ===
/** The incremental fetch/persist controller (`GQLDataFactory` in
    pdr_backend/lake/gql_data_factory.py).

    For every configured dataset the controller finds where its parquet file
    ends, fetches what is newer, merges it into the file keeping one row per
    `ID`, and finally loads a `[st, fin]` window of every file. The parquet
    files are a map from path to table; the fetch functions, the clock and
    the lake settings are parameters. */
module GqlDataFactory {
  import opened Results
  import opened Rows
  import opened Paths
  import opened Tables
  import opened Seqs

  /** One entry of `record_config`: the dataset key and the schema its
      frames must have. The fetch function and its `config` are the
      `fetch` parameter of the operations below. */
  datatype Record = Record(key: string, schema: Schema)

  /** The parquet files of the lake, by path. */
  type Files = map<string, Table>

  /** The lake settings the controller reads: `parquet_dir`,
      `st_timestamp` and `fin_timestamp`. */
  datatype LakeSettings = LakeSettings(parquetDir: string, stTimestamp: int, finTimestamp: int)

  /** A fetch function: dataset key, start and finish timestamp to the
      frame fetched. */
  type Fetcher = (string, int, int) -> Table

  function Keys(records: seq<Record>): set<string> {
    set rec | rec in records :: rec.key
  }

  /** The keys of `record_config`, a dictionary, are distinct: no key
      comes back later in the sequence. */
  predicate DistinctKeys(records: seq<Record>)
    decreases |records|
  {
    |records| == 0 || (records[0].key !in Keys(records[1..]) && DistinctKeys(records[1..]))
  }

  // ---------------------------------------------------------------------------
  // _parquet_filename

  /** `_parquet_filename`: `<key>.parquet` under the parquet directory. */
  function ParquetFilename(parquetDir: string, key: string): (path: string)
    ensures |path| >= |key| + 8 && path[|path| - (|key| + 8)..] == key + ".parquet"
  {
    var name := key + ".parquet";
    if |name| > 0 && name[0] == '/' then JoinPath(parquetDir, name)
    else
      JoinPathEndsWithName(parquetDir, name);
      JoinPath(parquetDir, name)
  }

  /** Different relative keys get different files. */
  lemma ParquetFilenameInjective(parquetDir: string, a: string, b: string)
    requires !(|a| > 0 && a[0] == '/') && !(|b| > 0 && b[0] == '/')
    requires ParquetFilename(parquetDir, a) == ParquetFilename(parquetDir, b)
    ensures a == b
  {
    var na := a + ".parquet";
    var nb := b + ".parquet";
    assert !(|na| > 0 && na[0] == '/') by { if |a| == 0 { assert na[0] == '.'; } else { assert na[0] == a[0]; } }
    assert !(|nb| > 0 && nb[0] == '/') by { if |b| == 0 { assert nb[0] == '.'; } else { assert nb[0] == b[0]; } }
    JoinPathInjective(parquetDir, na, nb);
    assert a == na[..|a|] && b == nb[..|b|];
  }

  /** The files of the configured datasets. */
  function Filenames(parquetDir: string, records: seq<Record>): set<string> {
    set rec | rec in records :: ParquetFilename(parquetDir, rec.key)
  }

  // ---------------------------------------------------------------------------
  // _calc_start_ut

  /** `newest_ut`: the timestamp of the last row of a file. */
  function NewestUt(t: Table): int
    requires |t.rows| > 0
  {
    t.rows[|t.rows| - 1].timestamp
  }

  /** Where fetching resumes, and the files after an empty one is removed. */
  datatype StartPoint = StartPoint(files: Files, stUt: int)

  /** `_calc_start_ut`: the configured start when there is no file, or when
      the file has no rows (it is then deleted); else one second after the
      newest stored timestamp. */
  function CalcStartUt(files: Files, filename: string, stTimestamp: int): (r: StartPoint)
    ensures filename !in files ==> r == StartPoint(files, stTimestamp)
    ensures filename in files && |files[filename].rows| == 0 ==>
      filename !in r.files && r.stUt == stTimestamp
    ensures filename in files && |files[filename].rows| > 0 ==>
      r.files == files && r.stUt - 1000 == NewestUt(files[filename])
    ensures forall f :: f != filename ==> (f in r.files <==> f in files)
    ensures forall f :: f != filename && f in files ==> r.files[f] == files[f]
  {
    if filename !in files then StartPoint(files, stTimestamp)
    else if |files[filename].rows| == 0 then StartPoint(files - {filename}, stTimestamp)
    else StartPoint(files, NewestUt(files[filename]) + 1000)
  }

  // ---------------------------------------------------------------------------
  // _save_parquet

  /** The preconditions `_save_parquet` asserts: an Int64 `timestamp`
      column, at least one row, and a first timestamp no later than the last
      (only the two ends are compared). */
  predicate SavePrecondition(df: Table) {
    && "timestamp" in df.schema && df.schema["timestamp"] == Int64
    && |df.rows| > 0
    && (|df.rows| > 1 ==> df.rows[0].timestamp <= df.rows[|df.rows| - 1].timestamp)
  }

  /** `_save_parquet`: a new file takes the frame as it is; an existing file
      is concatenated with it and reduced to the first row per `ID`. */
  function SaveParquet(files: Files, filename: string, df: Table): (r: Result<Files>)
    ensures r.Err? <==> !SavePrecondition(df) || (filename in files && files[filename].schema != df.schema)
    ensures r.Ok? ==> filename in r.value
    ensures r.Ok? ==> forall f :: f != filename ==> (f in r.value <==> f in files)
    ensures r.Ok? ==> forall f :: f != filename && f in files ==> r.value[f] == files[f]
    ensures r.Ok? && filename !in files ==> r.value[filename] == df
    ensures r.Ok? && filename in files ==>
      && r.value[filename].schema == df.schema
      && UniqueIds(r.value[filename].rows)
      && Ids(r.value[filename].rows) == Ids(files[filename].rows) + Ids(df.rows)
  {
    if !("timestamp" in df.schema && df.schema["timestamp"] == Int64) then
      Err(AssertionError("timestamp column of type Int64"))
    else if |df.rows| == 0 then Err(AssertionError("len(df) > 0"))
    else if |df.rows| > 1 && df.rows[0].timestamp > df.rows[|df.rows| - 1].timestamp then
      Err(AssertionError("first timestamp <= last timestamp"))
    else if filename in files then
      var cur := files[filename];
      if cur.schema != df.schema then Err(SchemaError)
      else
        IdsAppend(cur.rows, df.rows);
        Ok(files[filename := Table(cur.schema, GroupByFirst(cur.rows + df.rows))])
    else Ok(files[filename := df])
  }

  // ---------------------------------------------------------------------------
  // _update

  /** One round of the `_update` loop for one dataset, with `now` the clock
      reading of that round. */
  function UpdateDataset(files: Files, settings: LakeSettings, record: Record, finUt: int, now: int, fetch: Fetcher)
    : (r: Result<Files>)
    ensures var filename := ParquetFilename(settings.parquetDir, record.key);
            r.Ok? ==> forall f :: f != filename ==> (f in r.value <==> f in files)
    ensures var filename := ParquetFilename(settings.parquetDir, record.key);
            r.Ok? ==> forall f :: f != filename && f in files ==> r.value[f] == files[f]
  {
    var filename := ParquetFilename(settings.parquetDir, record.key);
    var start := CalcStartUt(files, filename, settings.stTimestamp);
    if start.stUt > Min(now, finUt) then Ok(start.files)
    else
      var df := fetch(record.key, start.stUt, finUt);
      if |df.rows| > 0 then
        if df.schema != record.schema then Err(AssertionError("df.schema == record schema"))
        else SaveParquet(start.files, filename, df)
      else Ok(start.files)
  }

  /** `_update`: every configured dataset in turn, stopping at the first
      failure; `nows` holds the clock reading of each round. */
  function Update(files: Files, settings: LakeSettings, records: seq<Record>, finUt: int, nows: seq<int>, fetch: Fetcher)
    : (r: Result<Files>)
    requires |nows| == |records|
    ensures r.Ok? ==> forall f :: f !in Filenames(settings.parquetDir, records) ==> (f in r.value <==> f in files)
    ensures r.Ok? ==> forall f :: f !in Filenames(settings.parquetDir, records) && f in files ==> r.value[f] == files[f]
    decreases |records|
  {
    if |records| == 0 then Ok(files)
    else
      match UpdateDataset(files, settings, records[0], finUt, nows[0], fetch)
      case Err(e) => Err(e)
      case Ok(next) =>
        assert Filenames(settings.parquetDir, records) ==
          {ParquetFilename(settings.parquetDir, records[0].key)} + Filenames(settings.parquetDir, records[1..]) by {
          assert records == [records[0]] + records[1..];
        }
        Update(next, settings, records[1..], finUt, nows[1..], fetch)
  }

  /** `_update` with what it leaves on disk when a round fails: the files
      of the rounds before it stay written, and the failing round leaves
      the removal of an empty file by `_calc_start_ut`, since both of its
      failures, the schema assert and `_save_parquet`'s asserts, come before
      any write. */
  function UpdateOutcome(files: Files, settings: LakeSettings, records: seq<Record>, finUt: int, nows: seq<int>, fetch: Fetcher)
    : (r: Outcome<Files>)
    requires |nows| == |records|
    ensures r.done <= |records|
    ensures Update(files, settings, records[..r.done], finUt, nows[..r.done], fetch).Ok?
    ensures r.error.None? <==> Update(files, settings, records, finUt, nows, fetch).Ok?
    ensures r.error.None? ==> r.done == |records| && Update(files, settings, records, finUt, nows, fetch) == Ok(r.state)
    ensures r.error.Some? ==> r.done < |records| && Update(files, settings, records, finUt, nows, fetch) == Err(r.error.value)
    ensures r.error.Some? ==>
              var before := Update(files, settings, records[..r.done], finUt, nows[..r.done], fetch).value;
              && UpdateDataset(before, settings, records[r.done], finUt, nows[r.done], fetch) == Err(r.error.value)
              && r.state == CalcStartUt(before, ParquetFilename(settings.parquetDir, records[r.done].key), settings.stTimestamp).files
    decreases |records|
  {
    if |records| == 0 then Outcome(files, 0, None)
    else
      match UpdateDataset(files, settings, records[0], finUt, nows[0], fetch)
      case Err(e) =>
        assert records[..0] == [] && nows[..0] == [];
        Outcome(CalcStartUt(files, ParquetFilename(settings.parquetDir, records[0].key), settings.stTimestamp).files, 0, Some(e))
      case Ok(next) =>
        var rest := UpdateOutcome(next, settings, records[1..], finUt, nows[1..], fetch);
        UpdatePrefix(files, settings, records, finUt, nows, fetch, next, rest.done);
        Outcome(rest.state, rest.done + 1, rest.error)
  }

  /** A prefix of the rounds that starts with a successful round. */
  lemma UpdatePrefix(files: Files, settings: LakeSettings, records: seq<Record>, finUt: int, nows: seq<int>, fetch: Fetcher,
                     next: Files, d: nat)
    requires |nows| == |records| && d < |records|
    requires UpdateDataset(files, settings, records[0], finUt, nows[0], fetch) == Ok(next)
    ensures Update(files, settings, records[..d + 1], finUt, nows[..d + 1], fetch) ==
      Update(next, settings, records[1..][..d], finUt, nows[1..][..d], fetch)
    ensures records[1..][d..] == records[d + 1..] && nows[1..][d..] == nows[d + 1..]
  {
    PrefixTail(records, d);
    PrefixTail(nows, d);
    UpdateStep(files, settings, records[..d + 1], finUt, nows[..d + 1], fetch, next);
  }

  /** One round of `_update` that succeeds. */
  lemma UpdateStep(files: Files, settings: LakeSettings, records: seq<Record>, finUt: int, nows: seq<int>, fetch: Fetcher,
                   next: Files)
    requires |nows| == |records| > 0
    requires UpdateDataset(files, settings, records[0], finUt, nows[0], fetch) == Ok(next)
    ensures Update(files, settings, records, finUt, nows, fetch) == Update(next, settings, records[1..], finUt, nows[1..], fetch)
  {
  }

  // ---------------------------------------------------------------------------
  // _load_parquet and get_gql_dfs

  /** One round of `_load_parquet`: the stored table, or an empty table of
      the declared schema when there is no file, filtered to `[st, fin]`;
      its schema must be the declared one. */
  function LoadDataset(files: Files, settings: LakeSettings, record: Record, finUt: int): (r: Result<Table>)
    ensures r.Ok? ==> r.value.schema == record.schema
    ensures r.Ok? ==> forall k :: 0 <= k < |r.value.rows| ==> InWindow(r.value.rows[k], settings.stTimestamp, finUt)
  {
    var filename := ParquetFilename(settings.parquetDir, record.key);
    var df := if filename in files then files[filename] else Table(record.schema, []);
    if "timestamp" !in df.schema then Err(ColumnNotFoundError("timestamp"))
    else
      var windowed := Table(df.schema, FilterWindow(df.rows, settings.stTimestamp, finUt));
      if windowed.schema != record.schema then Err(AssertionError("df.schema == record schema"))
      else Ok(windowed)
  }

  /** The loop of `_load_parquet`: `load` applied to every record in turn,
      stopping at the first failure, with the tables collected by key. */
  function LoadAll(records: seq<Record>, load: Record -> Result<Table>): (r: Result<map<string, Table>>)
    ensures r.Ok? ==> r.value.Keys == Keys(records)
    decreases |records|
  {
    if |records| == 0 then Ok(map[])
    else
      match load(records[0])
      case Err(e) => Err(e)
      case Ok(df) =>
        match LoadAll(records[1..], load)
        case Err(e) => Err(e)
        case Ok(rest) =>
          assert Keys(records) == {records[0].key} + Keys(records[1..]) by {
            assert records == [records[0]] + records[1..];
          }
          Ok(map[records[0].key := df] + rest)
  }

  /** Every row of the table lies inside `[st, fin]`. */
  predicate AllInWindow(t: Table, st: int, fin: int) {
    forall k :: 0 <= k < |t.rows| ==> InWindow(t.rows[k], st, fin)
  }

  /** When every round loads a windowed table, so does the whole loop. */
  lemma {:induction false} LoadAllWindow(records: seq<Record>, load: Record -> Result<Table>, st: int, fin: int)
    requires forall rec :: load(rec).Ok? ==> AllInWindow(load(rec).value, st, fin)
    requires LoadAll(records, load).Ok?
    ensures forall key :: key in LoadAll(records, load).value ==> AllInWindow(LoadAll(records, load).value[key], st, fin)
    decreases |records|
  {
    if |records| > 0 {
      LoadAllWindow(records[1..], load, st, fin);
    }
  }

  /** One round of `_load_parquet` as a function of the record. */
  function Loader(files: Files, settings: LakeSettings, finUt: int): Record -> Result<Table> {
    record => LoadDataset(files, settings, record, finUt)
  }

  /** `_load_parquet`: one windowed table per configured dataset, by key. */
  function LoadParquet(files: Files, settings: LakeSettings, records: seq<Record>, finUt: int)
    : (r: Result<map<string, Table>>)
    ensures r.Ok? ==> r.value.Keys == Keys(records)
  {
    LoadAll(records, Loader(files, settings, finUt))
  }

  /** Every table `_load_parquet` returns holds only rows inside `[st, fin]`. */
  lemma LoadParquetWindow(files: Files, settings: LakeSettings, records: seq<Record>, finUt: int)
    requires LoadParquet(files, settings, records, finUt).Ok?
    ensures forall key :: key in LoadParquet(files, settings, records, finUt).value ==>
      AllInWindow(LoadParquet(files, settings, records, finUt).value[key], settings.stTimestamp, finUt)
  {
    LoadAllWindow(records, Loader(files, settings, finUt), settings.stTimestamp, finUt);
  }

  /** What `get_gql_dfs` leaves behind: the updated files and the loaded tables. */
  datatype GqlDfs = GqlDfs(files: Files, dfs: map<string, Table>)

  /** `get_gql_dfs`: reads `fin_timestamp` once, updates every file up to
      it, loads every file's `[st, fin]` window, and asserts that at least
      one table was loaded. */
  function GetGqlDfs(files: Files, settings: LakeSettings, records: seq<Record>, nows: seq<int>, fetch: Fetcher)
    : (r: Result<GqlDfs>)
    requires |nows| == |records|
    ensures |records| == 0 ==> r.Err?
    ensures r.Ok? ==> r.value.dfs.Keys == Keys(records)
    ensures r.Ok? ==> forall key :: key in r.value.dfs ==>
      forall k :: 0 <= k < |r.value.dfs[key].rows| ==>
        settings.stTimestamp <= r.value.dfs[key].rows[k].timestamp <= settings.finTimestamp
  {
    var finUt := settings.finTimestamp;
    var updated :- Update(files, settings, records, finUt, nows, fetch);
    var dfs :- LoadParquet(updated, settings, records, finUt);
    LoadParquetWindow(updated, settings, records, finUt);
    if |dfs| == 0 then Err(AssertionError("len(gql_dfs.values()) > 0"))
    else Ok(GqlDfs(updated, dfs))
  }

  /** The files `get_gql_dfs` leaves behind, also when it fails: those its
      `_update` left, since loading and the final assert write nothing. */
  function GetGqlDfsOutcome(files: Files, settings: LakeSettings, records: seq<Record>, nows: seq<int>, fetch: Fetcher)
    : (r: Outcome<Files>)
    requires |nows| == |records|
    ensures r.error.None? <==> GetGqlDfs(files, settings, records, nows, fetch).Ok?
    ensures r.error.None? ==> GetGqlDfs(files, settings, records, nows, fetch).value.files == r.state
    ensures r.error.Some? ==> GetGqlDfs(files, settings, records, nows, fetch) == Err(r.error.value)
    ensures r.state == UpdateOutcome(files, settings, records, settings.finTimestamp, nows, fetch).state
  {
    var u := UpdateOutcome(files, settings, records, settings.finTimestamp, nows, fetch);
    GetGqlDfsAfterUpdate(files, settings, records, nows, fetch);
    if u.error.Some? then u
    else
      match GetGqlDfs(files, settings, records, nows, fetch)
      case Err(e) => Outcome(u.state, u.done, Some(e))
      case Ok(_) => u
  }

  /** `get_gql_dfs` fails with `_update`'s error when `_update` fails, and
      otherwise leaves the files `_update` produced. */
  lemma GetGqlDfsAfterUpdate(files: Files, settings: LakeSettings, records: seq<Record>, nows: seq<int>, fetch: Fetcher)
    requires |nows| == |records|
    ensures var u := Update(files, settings, records, settings.finTimestamp, nows, fetch);
            u.Err? ==> GetGqlDfs(files, settings, records, nows, fetch) == Err(u.error)
    ensures var u := Update(files, settings, records, settings.finTimestamp, nows, fetch);
            GetGqlDfs(files, settings, records, nows, fetch).Ok? ==> u.Ok? && GetGqlDfs(files, settings, records, nows, fetch).value.files == u.value
  {
  }
}

=== FILE: gql_properties.dfy ===
/** Properties of the fetch/persist controller: where fetching resumes, when
    the fetch function matters, what a merge keeps, and what a load returns. */
module GqlProperties {
  import opened Results
  import opened Rows
  import opened Tables
  import opened GqlDataFactory

  // ---------------------------------------------------------------------------
  // Resuming

  /** Resuming one second after the newest stored row skips no whole-second
      timestamp that is later than every stored row, whatever order the rows
      are stored in. */
  lemma NoWholeSecondSkipped(files: Files, filename: string, stTimestamp: int, t: int)
    requires filename in files && |files[filename].rows| > 0
    requires forall k :: 0 <= k < |files[filename].rows| ==> files[filename].rows[k].timestamp % 1000 == 0
    requires t % 1000 == 0
    requires forall k :: 0 <= k < |files[filename].rows| ==> files[filename].rows[k].timestamp < t
    ensures CalcStartUt(files, filename, stTimestamp).stUt <= t
  {
    var rows := files[filename].rows;
    var newest := rows[|rows| - 1].timestamp;
    assert newest < t && newest % 1000 == 0;
    assert (t - newest) % 1000 == 0;
  }

  /** When the file is in time order, fetching resumes after every stored row. */
  lemma ResumeAfterStored(files: Files, filename: string, stTimestamp: int)
    requires filename in files && Sorted(files[filename].rows)
    ensures forall k :: 0 <= k < |files[filename].rows| ==>
      files[filename].rows[k].timestamp < CalcStartUt(files, filename, stTimestamp).stUt
  {
  }

  // ---------------------------------------------------------------------------
  // _update

  /** A dataset whose start lies after `min(now, fin)` is neither fetched nor
      saved: the fetch function plays no part and only the removal of an
      empty file remains. */
  lemma SkipIgnoresFetch(files: Files, settings: LakeSettings, record: Record, finUt: int, now: int,
                         fetch1: Fetcher, fetch2: Fetcher)
    requires CalcStartUt(files, ParquetFilename(settings.parquetDir, record.key), settings.stTimestamp).stUt
      > Min(now, finUt)
    ensures UpdateDataset(files, settings, record, finUt, now, fetch1)
      == UpdateDataset(files, settings, record, finUt, now, fetch2)
      == Ok(CalcStartUt(files, ParquetFilename(settings.parquetDir, record.key), settings.stTimestamp).files)
  {
  }

  /** An empty fetched frame is not saved. */
  lemma EmptyFetchSavesNothing(files: Files, settings: LakeSettings, record: Record, finUt: int, now: int,
                               fetch: Fetcher)
    requires var start := CalcStartUt(files, ParquetFilename(settings.parquetDir, record.key), settings.stTimestamp);
             |fetch(record.key, start.stUt, finUt).rows| == 0
    ensures UpdateDataset(files, settings, record, finUt, now, fetch)
      == Ok(CalcStartUt(files, ParquetFilename(settings.parquetDir, record.key), settings.stTimestamp).files)
  {
  }

  /** A fetched non-empty frame with another schema than the declared one
      fails the assertion and is not saved. */
  lemma SchemaMismatchFails(files: Files, settings: LakeSettings, record: Record, finUt: int, now: int,
                            fetch: Fetcher)
    requires var start := CalcStartUt(files, ParquetFilename(settings.parquetDir, record.key), settings.stTimestamp);
             && start.stUt <= Min(now, finUt)
             && |fetch(record.key, start.stUt, finUt).rows| > 0
             && fetch(record.key, start.stUt, finUt).schema != record.schema
    ensures UpdateDataset(files, settings, record, finUt, now, fetch).Err?
    ensures UpdateDataset(files, settings, record, finUt, now, fetch).error.AssertionError?
  {
  }

  /** A fetched frame that is saved leaves every one of its `ID`s in the
      dataset's file; a file that had no rows is replaced by the frame. */
  lemma FetchedRowsLand(files: Files, settings: LakeSettings, record: Record, finUt: int, now: int,
                        fetch: Fetcher)
    requires var start := CalcStartUt(files, ParquetFilename(settings.parquetDir, record.key), settings.stTimestamp);
             start.stUt <= Min(now, finUt)
    requires UpdateDataset(files, settings, record, finUt, now, fetch).Ok?
    ensures var filename := ParquetFilename(settings.parquetDir, record.key);
            var start := CalcStartUt(files, filename, settings.stTimestamp);
            var df := fetch(record.key, start.stUt, finUt);
            var after := UpdateDataset(files, settings, record, finUt, now, fetch).value;
            |df.rows| > 0 ==> filename in after && Ids(df.rows) <= Ids(after[filename].rows)
    ensures var filename := ParquetFilename(settings.parquetDir, record.key);
            var start := CalcStartUt(files, filename, settings.stTimestamp);
            var df := fetch(record.key, start.stUt, finUt);
            var after := UpdateDataset(files, settings, record, finUt, now, fetch).value;
            |df.rows| > 0 && (filename !in files || |files[filename].rows| == 0) ==> after[filename] == df
  {
  }

  /** The fetch function is only ever asked for data up to `fin`: two fetch
      functions that agree on every request ending at `fin` give the same
      update. */
  lemma {:induction false} UpdateFetchesUpToFin(files: Files, settings: LakeSettings, records: seq<Record>,
                                                finUt: int, nows: seq<int>, fetch1: Fetcher, fetch2: Fetcher)
    requires |nows| == |records|
    requires forall key, st :: fetch1(key, st, finUt) == fetch2(key, st, finUt)
    ensures Update(files, settings, records, finUt, nows, fetch1) == Update(files, settings, records, finUt, nows, fetch2)
    decreases |records|
  {
    if |records| > 0 {
      var r1 := UpdateDataset(files, settings, records[0], finUt, nows[0], fetch1);
      var r2 := UpdateDataset(files, settings, records[0], finUt, nows[0], fetch2);
      assert r1 == r2;
      if r1.Ok? {
        UpdateFetchesUpToFin(r1.value, settings, records[1..], finUt, nows[1..], fetch1, fetch2);
      }
    }
  }

  /** `get_gql_dfs` reads `fin_timestamp` once: its update asks the fetch
      functions for nothing beyond that value, and its load cuts at it. */
  lemma GqlDfsUsesOneFin(files: Files, settings: LakeSettings, records: seq<Record>, nows: seq<int>,
                         fetch1: Fetcher, fetch2: Fetcher)
    requires |nows| == |records|
    requires forall key, st :: fetch1(key, st, settings.finTimestamp) == fetch2(key, st, settings.finTimestamp)
    ensures GetGqlDfs(files, settings, records, nows, fetch1) == GetGqlDfs(files, settings, records, nows, fetch2)
  {
    UpdateFetchesUpToFin(files, settings, records, settings.finTimestamp, nows, fetch1, fetch2);
    SameUpdateSameDfs(files, settings, records, nows, fetch1, fetch2);
  }

  /** `get_gql_dfs` depends on the fetch functions only through `_update`. */
  lemma SameUpdateSameDfs(files: Files, settings: LakeSettings, records: seq<Record>, nows: seq<int>,
                          fetch1: Fetcher, fetch2: Fetcher)
    requires |nows| == |records|
    requires Update(files, settings, records, settings.finTimestamp, nows, fetch1) ==
             Update(files, settings, records, settings.finTimestamp, nows, fetch2)
    ensures GetGqlDfs(files, settings, records, nows, fetch1) == GetGqlDfs(files, settings, records, nows, fetch2)
  {
  }

  // ---------------------------------------------------------------------------
  // _save_parquet: merging

  /** Merging into a file with distinct `ID`s keeps the stored rows as they
      are and adds the first row of every new `ID`. */
  lemma MergeKeepsStored(cur: seq<Row>, fetched: seq<Row>)
    requires UniqueIds(cur)
    ensures GroupByFirst(cur + fetched) == cur + DedupFrom(fetched, Ids(cur))
  {
    DedupFromAppend(cur, fetched, {});
    DedupFromUnique(cur, {});
    assert {} + Ids(cur) == Ids(cur);
  }

  /** The same in any group order: whatever order `group_by` returns, the
      merged rows are the stored rows together with the first row of every
      new `ID`, and there are exactly as many of them. */
  lemma MergeKeepsStoredAnyOrder(cur: seq<Row>, fetched: seq<Row>, merged: seq<Row>)
    requires UniqueIds(cur)
    requires GroupedFirst(cur + fetched, merged)
    ensures RowSet(merged) == RowSet(cur) + RowSet(DedupFrom(fetched, Ids(cur)))
    ensures |merged| == |cur| + |DedupFrom(fetched, Ids(cur))|
  {
    MergeKeepsStored(cur, fetched);
    GroupByFirstIsGrouped(cur + fetched);
    GroupedFirstAgree(cur + fetched, merged, GroupByFirst(cur + fetched));
    RowSetAppend(cur, DedupFrom(fetched, Ids(cur)));
  }

  /** For an `ID` already stored, the merged file holds the stored row, not
      the fetched one, whatever order the groups come out in. */
  lemma StoredRowWins(cur: seq<Row>, fetched: seq<Row>, merged: seq<Row>, k: nat)
    requires GroupedFirst(cur + fetched, merged)
    requires k < |merged| && merged[k].id in Ids(cur)
    ensures merged[k] == FirstWithId(cur, merged[k].id)
  {
    FirstWithIdAppend(cur, fetched, merged[k].id);
  }

  /** `n_new = len(merged) - len(stored)` counts the fetched `ID`s that were
      not stored yet, so it is never negative when the stored `ID`s are
      distinct. */
  lemma MergeCount(cur: seq<Row>, fetched: seq<Row>)
    requires UniqueIds(cur)
    ensures |GroupByFirst(cur + fetched)| - |cur| == |Ids(fetched) - Ids(cur)| >= 0
  {
    MergeKeepsStored(cur, fetched);
    var added := DedupFrom(fetched, Ids(cur));
    DedupFromIds(fetched, Ids(cur));
    UniqueIdsCount(added);
  }

  /** The same count in any group order: `n_new` is a difference of lengths,
      and every order holds as many rows. */
  lemma MergeCountAnyOrder(cur: seq<Row>, fetched: seq<Row>, merged: seq<Row>)
    requires UniqueIds(cur)
    requires GroupedFirst(cur + fetched, merged)
    ensures |merged| - |cur| == |Ids(fetched) - Ids(cur)| >= 0
  {
    MergeCount(cur, fetched);
    GroupByFirstIsGrouped(cur + fetched);
    GroupedFirstAgree(cur + fetched, merged, GroupByFirst(cur + fetched));
  }

  /** A first save writes the frame without deduplication, so the stored
      `ID`s need not be distinct, and then `n_new` can be negative: three
      rows of one `ID` stored, one more fetched, one row left. */
  lemma NewCountCanBeNegative()
    ensures var a := Row("a", 1000, "x");
            |GroupByFirst([a, a, a] + [a])| - |[a, a, a]| == -2
  {
    var a := Row("a", 1000, "x");
    var m := GroupByFirst([a, a, a] + [a]);
    UniqueIdsCount(m);
    assert Ids([a, a, a] + [a]) == {"a"};
  }

  /** Merging the same rows a second time changes nothing. */
  lemma MergeTwice(cur: seq<Row>, fetched: seq<Row>)
    ensures GroupByFirst(GroupByFirst(cur + fetched) + fetched) == GroupByFirst(cur + fetched)
  {
    var merged := GroupByFirst(cur + fetched);
    DedupFromAppend(merged, fetched, {});
    DedupFromUnique(merged, {});
    IdsAppend(cur, fetched);
    DedupFromCovered(fetched, {} + Ids(merged));
    assert merged + [] == merged;
  }

  /** The same in any group order: merging the fetched rows into any order
      of the merged file gives back the same rows, as many of them and with
      the same `ID`s, in some order. */
  lemma MergeTwiceAnyOrder(cur: seq<Row>, fetched: seq<Row>, merged: seq<Row>, merged2: seq<Row>)
    requires GroupedFirst(cur + fetched, merged)
    requires GroupedFirst(merged + fetched, merged2)
    ensures RowSet(merged2) == RowSet(merged)
    ensures |merged2| == |merged|
    ensures Ids(merged2) == Ids(merged)
  {
    MergeKeepsStored(merged, fetched);
    IdsAppend(cur, fetched);
    DedupFromCovered(fetched, Ids(merged));
    assert merged + [] == merged;
    GroupByFirstIsGrouped(merged + fetched);
    GroupedFirstAgree(merged + fetched, merged2, GroupByFirst(merged + fetched));
  }

  /** Saving the same frame into an existing file twice changes nothing the
      second time. */
  lemma SaveTwiceIsIdempotent(files: Files, filename: string, df: Table)
    requires filename in files
    requires SaveParquet(files, filename, df).Ok?
    ensures SaveParquet(SaveParquet(files, filename, df).value, filename, df) == SaveParquet(files, filename, df)
  {
    var once := SaveParquet(files, filename, df).value;
    var cur := files[filename];
    assert once == files[filename := Table(cur.schema, GroupByFirst(cur.rows + df.rows))];
    MergeTwice(cur.rows, df.rows);
    assert once[filename := Table(cur.schema, GroupByFirst(once[filename].rows + df.rows))] == once;
  }

  /** Saving the same frame into an existing file twice, whatever group
      order each merge comes out in: the second save succeeds, and the file
      keeps its schema, its rows, their number and their `ID`s; only their
      order may change. */
  lemma SaveTwiceAnyOrder(files: Files, filename: string, df: Table, merged: seq<Row>, merged2: seq<Row>)
    requires filename in files
    requires SaveParquet(files, filename, df).Ok?
    requires GroupedFirst(files[filename].rows + df.rows, merged)
    requires GroupedFirst(merged + df.rows, merged2)
    ensures var once := files[filename := Table(files[filename].schema, merged)];
            && SaveParquet(once, filename, df).Ok?
            && SaveParquet(once, filename, df).value[filename].schema == once[filename].schema
            && RowSet(merged2) == RowSet(merged)
            && |merged2| == |merged|
            && Ids(merged2) == Ids(merged)
  {
    MergeTwiceAnyOrder(files[filename].rows, df.rows, merged, merged2);
  }

  /** Saving a frame a second time after it created the file keeps the file's
      `ID` set, and its row count too when the frame had distinct `ID`s. */
  lemma SaveTwiceKeepsIds(files: Files, filename: string, df: Table)
    requires filename !in files
    requires SaveParquet(files, filename, df).Ok?
    ensures var once := SaveParquet(files, filename, df).value;
            var twice := SaveParquet(once, filename, df);
            && twice.Ok?
            && Ids(twice.value[filename].rows) == Ids(df.rows)
            && (UniqueIds(df.rows) ==> |twice.value[filename].rows| == |df.rows|)
  {
    var once := SaveParquet(files, filename, df).value;
    if UniqueIds(df.rows) {
      MergeCount(df.rows, df.rows);
      assert Ids(df.rows) - Ids(df.rows) == {};
    }
  }

  /** The same in any group order: the second save of a frame that created
      the file merges it with itself, keeping its `ID` set, and its row count
      when its `ID`s are distinct. */
  lemma SaveTwiceKeepsIdsAnyOrder(df: Table, merged: seq<Row>)
    requires GroupedFirst(df.rows + df.rows, merged)
    ensures Ids(merged) == Ids(df.rows)
    ensures UniqueIds(df.rows) ==> |merged| == |df.rows|
  {
    IdsAppend(df.rows, df.rows);
    if UniqueIds(df.rows) {
      MergeCountAnyOrder(df.rows, df.rows, merged);
      assert Ids(df.rows) - Ids(df.rows) == {};
    }
  }

  // ---------------------------------------------------------------------------
  // _load_parquet

  /** A dataset without a file loads as an empty table of its declared schema. */
  lemma LoadAbsentIsEmpty(files: Files, settings: LakeSettings, record: Record, finUt: int)
    requires ParquetFilename(settings.parquetDir, record.key) !in files
    requires "timestamp" in record.schema
    ensures LoadDataset(files, settings, record, finUt) == Ok(Table(record.schema, []))
  {
  }

  /** A stored file loads as exactly its rows inside `[st, fin]`, each as
      often as it is stored. */
  lemma LoadStoredWindow(files: Files, settings: LakeSettings, record: Record, finUt: int)
    requires ParquetFilename(settings.parquetDir, record.key) in files
    requires files[ParquetFilename(settings.parquetDir, record.key)].schema == record.schema
    requires "timestamp" in record.schema
    ensures LoadDataset(files, settings, record, finUt).Ok?
    ensures var stored := files[ParquetFilename(settings.parquetDir, record.key)].rows;
            var loaded := LoadDataset(files, settings, record, finUt).value.rows;
            forall x :: multiset(loaded)[x] == if InWindow(x, settings.stTimestamp, finUt) then multiset(stored)[x] else 0
  {
    FilterWindowCounts(files[ParquetFilename(settings.parquetDir, record.key)].rows, settings.stTimestamp, finUt);
  }

  /** One round of the loop: the first record's table in front of the
      tables of the others. */
  lemma LoadAllStep(records: seq<Record>, load: Record -> Result<Table>)
    requires |records| > 0
    requires LoadAll(records, load).Ok?
    ensures load(records[0]).Ok?
    ensures LoadAll(records[1..], load).Ok?
    ensures LoadAll(records, load).value == map[records[0].key := load(records[0]).value] + LoadAll(records[1..], load).value
  {
  }

  /** With distinct keys, the loop files each record's table under its own key. */
  lemma {:induction false} LoadAllPerKey(records: seq<Record>, load: Record -> Result<Table>, i: nat)
    requires DistinctKeys(records)
    requires i < |records|
    requires LoadAll(records, load).Ok?
    ensures load(records[i]).Ok?
    ensures records[i].key in LoadAll(records, load).value
    ensures LoadAll(records, load).value[records[i].key] == load(records[i]).value
    decreases |records|
  {
    LoadAllStep(records, load);
    if i > 0 {
      assert records[1..][i - 1] == records[i];
      LoadAllPerKey(records[1..], load, i - 1);
    }
  }

  /** With distinct keys, the table loaded under each key is that dataset's
      own window. */
  lemma LoadParquetPerKey(files: Files, settings: LakeSettings, records: seq<Record>, finUt: int, i: nat)
    requires DistinctKeys(records)
    requires i < |records|
    requires LoadParquet(files, settings, records, finUt).Ok?
    ensures LoadDataset(files, settings, records[i], finUt).Ok?
    ensures records[i].key in LoadParquet(files, settings, records, finUt).value
    ensures LoadParquet(files, settings, records, finUt).value[records[i].key]
      == LoadDataset(files, settings, records[i], finUt).value
  {
    LoadAllPerKey(records, Loader(files, settings, finUt), i);
  }
}

=== FILE: paths.dfy ===
/** The two `os.path` operations the lake code uses on POSIX paths. */
module Paths {
  import opened Strings

  /** `os.path.join(dir, name)`: an absolute `name` replaces `dir`, and a
      separator is inserted unless `dir` is empty or already ends in one. */
  function JoinPath(dir: string, name: string): string {
    if |name| > 0 && name[0] == '/' then name
    else if |dir| == 0 || dir[|dir| - 1] == '/' then dir + name
    else dir + "/" + name
  }

  /** `path.split("/")[-1]`, the last path component. */
  function BaseName(path: string): string {
    var parts := Split(path, '/');
    parts[|parts| - 1]
  }

  /** A relative component joined onto a directory ends the joined path. */
  lemma JoinPathEndsWithName(dir: string, name: string)
    requires !(|name| > 0 && name[0] == '/')
    ensures |JoinPath(dir, name)| >= |name|
    ensures JoinPath(dir, name)[|JoinPath(dir, name)| - |name|..] == name
  {
  }

  /** The base name of a joined path is the joined file name. */
  lemma {:induction false} BaseNameOfJoin(dir: string, name: string)
    requires '/' !in name
    ensures BaseName(JoinPath(dir, name)) == name
  {
    SplitWithoutSeparator(name, '/');
    if |dir| == 0 {
      assert JoinPath(dir, name) == name;
    } else if dir[|dir| - 1] == '/' {
      var parent := dir[..|dir| - 1];
      assert JoinPath(dir, name) == parent + ['/'] + name;
      SplitAround(parent, '/', name);
    } else {
      assert JoinPath(dir, name) == dir + ['/'] + name;
      SplitAround(dir, '/', name);
    }
  }

  /** Distinct relative names joined onto the same directory stay distinct. */
  lemma {:induction false} JoinPathInjective(dir: string, a: string, b: string)
    requires !(|a| > 0 && a[0] == '/') && !(|b| > 0 && b[0] == '/')
    requires JoinPath(dir, a) == JoinPath(dir, b)
    ensures a == b
  {
    var prefix := if |dir| == 0 || dir[|dir| - 1] == '/' then dir else dir + "/";
    assert JoinPath(dir, a) == prefix + a;
    assert JoinPath(dir, b) == prefix + b;
    assert a == (prefix + a)[|prefix|..];
    assert b == (prefix + b)[|prefix|..];
  }
}

=== FILE: results.dfy ===
/** Failure-compatible wrappers shared by every module of the model.

    The modelled Python code signals failures by raising exceptions; the model
    returns them as values instead, one constructor per exception class raised.
 */
module Results {

  /** The exception classes the modelled code can raise. */
  datatype Error =
    | ValueError(culprit: string)     // int() on a non-number, a setting out of range
    | IndexError                      // indexing an empty frame or a missing token
    | KeyError(key: string)           // reading a setting that is not in the dictionary
    | TypeError                       // ordering comparison between an int and a str
    | AssertionError(check: string)   // a failed `assert` pre- or postcondition
    | SchemaError                     // vertical concatenation of differently-typed frames
    | ColumnNotFoundError(column: string) // filtering a frame on a column it does not have

  datatype Option<+T> = None | Some(value: T)

  datatype Result<+T> = Ok(value: T) | Err(error: Error) {

    predicate IsFailure() {
      Err?
    }

    function PropagateFailure<U>(): Result<U>
      requires Err?
    {
      Err(error)
    }

    function Extract(): T
      requires Ok?
    {
      value
    }
  }

  /** What a loop that writes as it goes leaves behind: the state reached,
      how many rounds completed, and the error that stopped it, if any.
      Rounds completed before a failure stay written. */
  datatype Outcome<+S> = Outcome(state: S, done: nat, error: Option<Error>)

  function Min(a: int, b: int): int {
    if a <= b then a else b
  }

  function Max(a: int, b: int): int {
    if a >= b then a else b
  }
}

=== FILE: rows.dfy ===
/** Rows of a lake table and the row-level operations shared by both stores:
    sorting by `timestamp` and the inclusive timestamp window filter. */
module Rows {

  /** One record: the `ID` column, the `timestamp` column (ms since the
      epoch, UTC) and every other column folded into an opaque payload. */
  datatype Row = Row(id: string, timestamp: int, payload: string)

  predicate Sorted(rows: seq<Row>) {
    forall i, j :: 0 <= i < j < |rows| ==> rows[i].timestamp <= rows[j].timestamp
  }

  /** Inserts `r` before the first row that is not earlier than it. */
  function Insert(r: Row, rows: seq<Row>): (out: seq<Row>)
    requires Sorted(rows)
    ensures Sorted(out)
    ensures multiset(out) == multiset(rows) + multiset{r}
    ensures |out| == |rows| + 1
    ensures out[0] == r || (|rows| > 0 && out[0] == rows[0])
    decreases |rows|
  {
    if |rows| == 0 || r.timestamp <= rows[0].timestamp then
      SortedCons(r, rows);
      [r] + rows
    else
      assert rows == [rows[0]] + rows[1..];
      var tail := Insert(r, rows[1..]);
      assert rows[0].timestamp <= tail[0].timestamp;
      SortedCons(rows[0], tail);
      [rows[0]] + tail
  }

  /** A row no later than the head of a sorted sequence extends it. */
  lemma SortedCons(x: Row, rows: seq<Row>)
    requires Sorted(rows)
    requires |rows| > 0 ==> x.timestamp <= rows[0].timestamp
    ensures Sorted([x] + rows)
  {
  }

  /** `frame.sort("timestamp")`: an insertion sort. It keeps rows with equal
      timestamps in input order, one of the orders the source allows. */
  function SortByTimestamp(rows: seq<Row>): (out: seq<Row>)
    ensures Sorted(out)
    ensures multiset(out) == multiset(rows)
    decreases |rows|
  {
    if |rows| == 0 then []
    else
      assert rows == [rows[0]] + rows[1..];
      Insert(rows[0], SortByTimestamp(rows[1..]))
  }

  /** Timestamps strictly increasing: no two rows tie. */
  predicate StrictlySorted(rows: seq<Row>) {
    forall i, j :: 0 <= i < j < |rows| ==> rows[i].timestamp < rows[j].timestamp
  }

  /** Without ties a sort has one answer: a timestamp-sorted permutation of
      rows in strictly increasing order is those rows, whatever tie rule
      produced it. */
  lemma {:induction false} SortedPermutationsAgree(a: seq<Row>, b: seq<Row>)
    requires StrictlySorted(a) && Sorted(b)
    requires multiset(a) == multiset(b)
    ensures a == b
    decreases |a|
  {
    if |a| > 0 {
      HeadsAgree(a, b);
      MultisetCons(a);
      MultisetCons(b);
      assert StrictlySorted(a[1..]) by {
        forall i, j | 0 <= i < j < |a| - 1 ensures a[1..][i].timestamp < a[1..][j].timestamp {
          assert a[1..][i] == a[i + 1] && a[1..][j] == a[j + 1];
        }
      }
      assert Sorted(b[1..]) by {
        forall i, j | 0 <= i < j < |b| - 1 ensures b[1..][i].timestamp <= b[1..][j].timestamp {
          assert b[1..][i] == b[i + 1] && b[1..][j] == b[j + 1];
        }
      }
      SortedPermutationsAgree(a[1..], b[1..]);
    }
  }

  /** Both sequences start with the one row of least timestamp. */
  lemma HeadsAgree(a: seq<Row>, b: seq<Row>)
    requires StrictlySorted(a) && Sorted(b)
    requires multiset(a) == multiset(b) && |a| > 0
    ensures |b| > 0 && a[0] == b[0]
  {
    assert |b| == |multiset(b)|;
    assert b[0] in multiset(a);
    var k :| 0 <= k < |a| && a[k] == b[0];
    assert a[0] in multiset(b);
    var m :| 0 <= m < |b| && b[m] == a[0];
    assert b[0].timestamp <= b[m].timestamp;
    assert k == 0;
  }

  lemma MultisetCons(s: seq<Row>)
    requires |s| > 0
    ensures multiset(s[1..]) == multiset(s) - multiset{s[0]}
  {
    assert s == [s[0]] + s[1..];
  }

  /** The model's sort agrees with any sort whose result has no ties. */
  lemma SortIsUniqueWithoutTies(rows: seq<Row>, sorted: seq<Row>)
    requires StrictlySorted(sorted)
    requires multiset(sorted) == multiset(rows)
    ensures SortByTimestamp(rows) == sorted
  {
    SortedPermutationsAgree(sorted, SortByTimestamp(rows));
  }

  predicate InWindow(r: Row, st: int, fin: int) {
    st <= r.timestamp <= fin
  }

  /** `frame.filter((timestamp >= st) & (timestamp <= fin))`. */
  function FilterWindow(rows: seq<Row>, st: int, fin: int): (out: seq<Row>)
    ensures |out| <= |rows|
    ensures forall k :: 0 <= k < |out| ==> InWindow(out[k], st, fin)
    decreases |rows|
  {
    if |rows| == 0 then []
    else (if InWindow(rows[0], st, fin) then [rows[0]] else []) + FilterWindow(rows[1..], st, fin)
  }

  /** The window filter keeps every occurrence of a row inside the window and
      none outside it. */
  lemma {:induction false} FilterWindowCounts(rows: seq<Row>, st: int, fin: int)
    ensures forall x :: multiset(FilterWindow(rows, st, fin))[x] ==
                        (if InWindow(x, st, fin) then multiset(rows)[x] else 0)
    ensures forall x :: x in FilterWindow(rows, st, fin) <==> x in rows && InWindow(x, st, fin)
    decreases |rows|
  {
    if |rows| > 0 {
      FilterWindowCounts(rows[1..], st, fin);
      assert rows == [rows[0]] + rows[1..];
      var head := if InWindow(rows[0], st, fin) then [rows[0]] else [];
      assert FilterWindow(rows, st, fin) == head + FilterWindow(rows[1..], st, fin);
      assert multiset(FilterWindow(rows, st, fin)) == multiset(head) + multiset(FilterWindow(rows[1..], st, fin));
    }
  }

  /** The window filter keeps the relative order of the rows it retains. */
  lemma {:induction false} FilterWindowAppend(a: seq<Row>, b: seq<Row>, st: int, fin: int)
    ensures FilterWindow(a + b, st, fin) == FilterWindow(a, st, fin) + FilterWindow(b, st, fin)
    decreases |a|
  {
    if |a| > 0 {
      var head := if InWindow(a[0], st, fin) then [a[0]] else [];
      assert (a + b)[0] == a[0];
      assert (a + b)[1..] == a[1..] + b;
      FilterWindowAppend(a[1..], b, st, fin);
      assert FilterWindow(a + b, st, fin) == head + FilterWindow(a[1..] + b, st, fin);
      assert FilterWindow(a, st, fin) == head + FilterWindow(a[1..], st, fin);
    } else {
      assert a + b == b;
    }
  }

}

=== FILE: seqs.dfy ===
/** Generic sequence helpers. */
module Seqs {

  /** Concatenation of a sequence of sequences, in order (`vstack` of frames). */
  function Flatten<T>(xss: seq<seq<T>>): seq<T>
    decreases |xss|
  {
    if |xss| == 0 then [] else xss[0] + Flatten(xss[1..])
  }

  lemma {:induction false} FlattenAppend<T>(a: seq<seq<T>>, b: seq<seq<T>>)
    ensures Flatten(a + b) == Flatten(a) + Flatten(b)
    decreases |a|
  {
    if |a| == 0 {
      assert a + b == b;
    } else {
      assert (a + b)[0] == a[0];
      assert (a + b)[1..] == a[1..] + b;
      FlattenAppend(a[1..], b);
    }
  }

  lemma AppendAssociative<T>(a: seq<T>, b: seq<T>, c: seq<T>)
    ensures (a + b) + c == a + (b + c)
  {
  }

  /** Taking `d + 1` elements and dropping the head is dropping the head
      and taking `d`. */
  lemma PrefixTail<T>(s: seq<T>, d: nat)
    requires d < |s|
    ensures s[..d + 1][0] == s[0]
    ensures s[..d + 1][1..] == s[1..][..d]
    ensures s[1..][d..] == s[d + 1..]
  {
  }

  lemma FlattenSingle<T>(xs: seq<T>)
    ensures Flatten([xs]) == xs
  {
    assert [xs][1..] == [];
  }
}

=== FILE: strings.dfy ===
/** The pieces of Python's `str` behaviour the lake code relies on: `split`
    with a one-character separator, the `in` substring test, `replace` with an
    empty replacement, `str(int)`, `rjust` with zeros and `int(str)`.
 */
module Strings {
  import opened Results

  // ---------------------------------------------------------------------------
  // str.split(sep) and its inverse str.join

  /** `s.split(sep)` for a one-character separator: never empty, keeps empty
      fields, and no field contains the separator. */
  function Split(s: string, sep: char): (parts: seq<string>)
    ensures |parts| >= 1
    ensures forall i :: 0 <= i < |parts| ==> sep !in parts[i]
    decreases |s|
  {
    if |s| == 0 then [""]
    else
      var rest := Split(s[1..], sep);
      if s[0] == sep then [""] + rest
      else [[s[0]] + rest[0]] + rest[1..]
  }

  /** `sep.join(parts)`. */
  function Join(parts: seq<string>, sep: char): string
    decreases |parts|
  {
    if |parts| == 0 then ""
    else if |parts| == 1 then parts[0]
    else parts[0] + [sep] + Join(parts[1..], sep)
  }

  /** Joining the fields of a split gives back the original string. */
  lemma {:induction false} JoinSplit(s: string, sep: char)
    ensures Join(Split(s, sep), sep) == s
    decreases |s|
  {
    if |s| > 0 {
      var rest := Split(s[1..], sep);
      JoinSplit(s[1..], sep);
      if s[0] == sep {
        assert ([""] + rest)[1..] == rest;
        assert s == [sep] + s[1..];
      } else {
        var parts := [[s[0]] + rest[0]] + rest[1..];
        if |rest| == 1 {
          assert parts == [[s[0]] + rest[0]];
          assert s == [s[0]] + s[1..];
        } else {
          assert parts[1..] == rest[1..];
          assert s == [s[0]] + s[1..];
        }
      }
    }
  }

  /** A string without the separator splits into itself. */
  lemma {:induction false} SplitWithoutSeparator(s: string, sep: char)
    requires sep !in s
    ensures Split(s, sep) == [s]
    decreases |s|
  {
    if |s| > 0 {
      SplitWithoutSeparator(s[1..], sep);
      assert [s[0]] + s[1..] == s;
    }
  }

  /** One step of `Split`: a string made of `c` followed by `rest`. */
  lemma SplitStep(t: string, c: char, rest: string, sep: char)
    requires |t| > 0 && t[0] == c && t[1..] == rest
    ensures Split(t, sep) ==
      if c == sep then [""] + Split(rest, sep)
      else [[c] + Split(rest, sep)[0]] + Split(rest, sep)[1..]
  {
  }

  /** Gluing a character onto the first field commutes with appending fields. */
  lemma GlueFirst(c: char, ra: seq<string>, rb: seq<string>)
    requires |ra| > 0
    ensures [[c] + (ra + rb)[0]] + (ra + rb)[1..] == ([[c] + ra[0]] + ra[1..]) + rb
  {
    assert (ra + rb)[0] == ra[0];
    assert (ra + rb)[1..] == ra[1..] + rb;
  }

  /** Splitting distributes over a separator occurrence. */
  lemma {:induction false} SplitAround(a: string, sep: char, b: string)
    ensures Split(a + [sep] + b, sep) == Split(a, sep) + Split(b, sep)
    decreases |a|
  {
    var t := a + [sep] + b;
    if |a| == 0 {
      assert t[0] == sep && t[1..] == b;
      SplitStep(t, sep, b, sep);
    } else {
      var c := a[0];
      var a1 := a[1..];
      var t1 := a1 + [sep] + b;
      SplitAround(a1, sep, b);
      assert t[0] == c && t[1..] == t1;
      SplitStep(t, c, t1, sep);
      SplitStep(a, c, a1, sep);
      if c != sep {
        GlueFirst(c, Split(a1, sep), Split(b, sep));
      }
    }
  }

  /** Splitting a join of separator-free fields gives back the fields. */
  lemma {:induction false} SplitJoin(parts: seq<string>, sep: char)
    requires |parts| >= 1
    requires forall i :: 0 <= i < |parts| ==> sep !in parts[i]
    ensures Split(Join(parts, sep), sep) == parts
    decreases |parts|
  {
    SplitWithoutSeparator(parts[0], sep);
    if |parts| > 1 {
      SplitJoin(parts[1..], sep);
      SplitAround(parts[0], sep, Join(parts[1..], sep));
      assert parts == [parts[0]] + parts[1..];
    }
  }

  // ---------------------------------------------------------------------------
  // The substring test `pat in s`

  predicate IsPrefix(p: string, s: string) {
    |p| <= |s| && s[..|p|] == p
  }

  /** Python's `pat in s` on strings. */
  predicate Contains(s: string, pat: string)
    decreases |s|
  {
    IsPrefix(pat, s) || (|s| > 0 && Contains(s[1..], pat))
  }

  /** The index of the first field containing `pat`, as `next(... if pat in v)`. */
  function FirstContaining(fields: seq<string>, pat: string): (r: Option<nat>)
    ensures r.Some? ==> r.value < |fields| && Contains(fields[r.value], pat)
    ensures r.Some? ==> forall j :: 0 <= j < r.value ==> !Contains(fields[j], pat)
    ensures r.None? ==> forall j :: 0 <= j < |fields| ==> !Contains(fields[j], pat)
    decreases |fields|
  {
    if |fields| == 0 then None
    else if Contains(fields[0], pat) then Some(0)
    else
      match FirstContaining(fields[1..], pat)
      case None => None
      case Some(i) => Some(i + 1)
  }

  /** The first field containing `pat` is the first one after a prefix
      without it, when that one does. */
  lemma FirstContainingAt(prefix: seq<string>, rest: seq<string>, pat: string)
    requires forall j :: 0 <= j < |prefix| ==> !Contains(prefix[j], pat)
    requires |rest| > 0 && Contains(rest[0], pat)
    ensures FirstContaining(prefix + rest, pat) == Some(|prefix|)
  {
    var fields := prefix + rest;
    assert fields[|prefix|] == rest[0];
    assert forall j :: 0 <= j < |prefix| ==> fields[j] == prefix[j];
  }

  lemma ContainsItself(pat: string)
    ensures Contains(pat, pat)
  {
    assert IsPrefix(pat, pat);
  }

  // ---------------------------------------------------------------------------
  // s.replace(pat, "")

  /** `s.replace(pat, "")`: occurrences are removed left to right without overlap. */
  function RemoveAll(s: string, pat: string): string
    requires |pat| > 0
    decreases |s|
  {
    if |s| < |pat| then s
    else if s[..|pat|] == pat then RemoveAll(s[|pat|..], pat)
    else [s[0]] + RemoveAll(s[1..], pat)
  }

  /** Removing a suffix `pat` whose first character does not occur in `s`
      leaves exactly `s`. */
  lemma {:induction false} RemoveTrailing(s: string, pat: string)
    requires |pat| > 0 && pat[0] !in s
    ensures RemoveAll(s + pat, pat) == s
    decreases |s|
  {
    var t := s + pat;
    if |s| == 0 {
      assert t == pat;
      assert t[|pat|..] == [];
    } else {
      assert t[0] == s[0] != pat[0];
      assert t[..|pat|] != pat;
      assert t[1..] == s[1..] + pat;
      RemoveTrailing(s[1..], pat);
      assert [s[0]] + s[1..] == s;
    }
  }

  // ---------------------------------------------------------------------------
  // Decimal digits, str(int) and int(str)

  predicate IsDigit(c: char) {
    '0' <= c <= '9'
  }

  predicate AllDigits(s: string) {
    forall i :: 0 <= i < |s| ==> IsDigit(s[i])
  }

  function DigitChar(d: nat): (c: char)
    requires d < 10
    ensures IsDigit(c)
  {
    ('0' as int + d) as char
  }

  function DigitValue(c: char): nat
    requires IsDigit(c)
  {
    c as int - '0' as int
  }

  /** `str(n)` for a non-negative `n`: decimal, no leading zeros. */
  function NatToString(n: nat): (s: string)
    ensures 1 <= |s|
    ensures AllDigits(s)
    decreases n
  {
    if n < 10 then [DigitChar(n)]
    else NatToString(n / 10) + [DigitChar(n % 10)]
  }

  /** `str(n)` for any integer: a minus sign in front of negative numbers. */
  function IntToString(n: int): string {
    if n < 0 then "-" + NatToString(-n) else NatToString(n)
  }

  /** Characters of a rendered integer: digits and the minus sign. */
  predicate Numeral(s: string) {
    forall i :: 0 <= i < |s| ==> IsDigit(s[i]) || s[i] == '-'
  }

  lemma NumeralHasNo(s: string, c: char)
    requires Numeral(s) && !IsDigit(c) && c != '-'
    ensures c !in s
  {
  }

  lemma IntToStringNumeral(n: int)
    ensures Numeral(IntToString(n))
  {
    if n < 0 {
      var t := NatToString(-n);
      var s := "-" + t;
      forall i | 0 <= i < |s|
        ensures IsDigit(s[i]) || s[i] == '-'
      {
        if i > 0 {
          assert s[i] == t[i - 1];
        }
      }
    }
  }

  /** The value of a string of decimal digits, most significant first. */
  function DigitsValue(s: string): nat
    requires AllDigits(s)
    decreases |s|
  {
    if |s| == 0 then 0 else DigitsValue(s[..|s| - 1]) * 10 + DigitValue(s[|s| - 1])
  }

  /** `int(s)` in base 10: an optional sign and at least one digit, leading
      zeros allowed; anything else raises ValueError. */
  function ParseInt(s: string): Result<int> {
    if |s| > 0 && (s[0] == '-' || s[0] == '+') then
      var body := s[1..];
      if |body| > 0 && AllDigits(body) then
        var v: int := DigitsValue(body);
        Ok(if s[0] == '-' then -v else v)
      else Err(ValueError(s))
    else if |s| > 0 && AllDigits(s) then Ok(DigitsValue(s))
    else Err(ValueError(s))
  }

  /** A string of `k` zero characters. */
  function Zeros(k: nat): (z: string)
    ensures |z| == k
    ensures forall i :: 0 <= i < k ==> z[i] == '0'
  {
    seq(k, _ => '0')
  }

  lemma {:induction false} DigitsOfNatToString(n: nat)
    ensures DigitsValue(NatToString(n)) == n
    decreases n
  {
    var s := NatToString(n);
    if n < 10 {
      assert s[..|s| - 1] == [];
    } else {
      DigitsOfNatToString(n / 10);
      assert s[..|s| - 1] == NatToString(n / 10);
    }
  }

  lemma {:induction false} DigitsOfZeros(k: nat)
    ensures AllDigits(Zeros(k)) && DigitsValue(Zeros(k)) == 0
    decreases k
  {
    if k > 0 {
      assert Zeros(k)[..k - 1] == Zeros(k - 1);
      DigitsOfZeros(k - 1);
    }
  }

  /** Leading zeros do not change the value of a digit string. */
  lemma {:induction false} DigitsIgnoreLeadingZeros(k: nat, s: string)
    requires AllDigits(s)
    ensures AllDigits(Zeros(k) + s)
    ensures DigitsValue(Zeros(k) + s) == DigitsValue(s)
    decreases |s|
  {
    var t := Zeros(k) + s;
    assert AllDigits(t) by {
      forall i | 0 <= i < |t|
        ensures IsDigit(t[i])
      {
        if i >= k {
          assert t[i] == s[i - k];
        }
      }
    }
    if |s| == 0 {
      assert t == Zeros(k);
      DigitsOfZeros(k);
    } else {
      assert t[..|t| - 1] == Zeros(k) + s[..|s| - 1];
      DigitsIgnoreLeadingZeros(k, s[..|s| - 1]);
    }
  }
}

=== FILE: tables.dfy ===
/** Lake tables as the fetch/persist controller sees them: a schema and a
    sequence of rows, and the `group_by("ID").first()` step that keeps one
    row per `ID`. */
module Tables {
  import opened Rows

  /** Column data types; only `Int64` matters to the checks of the model. */
  datatype DType = Int64 | Float64 | Utf8 | Boolean | Other(name: string)

  /** A frame schema: column name to type. Frame schemas are compared as
      dictionaries, so column order plays no part. */
  type Schema = map<string, DType>

  datatype Table = Table(schema: Schema, rows: seq<Row>)

  /** The set of `ID` values of some rows. */
  function Ids(rows: seq<Row>): set<string> {
    set r | r in rows :: r.id
  }

  /** No two rows share an `ID`. */
  predicate UniqueIds(rows: seq<Row>) {
    forall i, j :: 0 <= i < j < |rows| ==> rows[i].id != rows[j].id
  }

  /** The first row carrying `id`. */
  function FirstWithId(rows: seq<Row>, id: string): (r: Row)
    requires id in Ids(rows)
    ensures r in rows && r.id == id
    decreases |rows|
  {
    if rows[0].id == id then rows[0]
    else
      assert forall x :: x in rows && x != rows[0] ==> x in rows[1..];
      FirstWithId(rows[1..], id)
  }

  /** The rows whose `ID` has not been seen, each kept at its first
      occurrence, in input order. */
  function DedupFrom(rows: seq<Row>, seen: set<string>): (r: seq<Row>)
    ensures |r| <= |rows|
    decreases |rows|
  {
    if |rows| == 0 then []
    else if rows[0].id in seen then DedupFrom(rows[1..], seen)
    else [rows[0]] + DedupFrom(rows[1..], seen + {rows[0].id})
  }

  /** `DedupFrom` keeps distinct `ID`s, exactly the unseen ones of the input. */
  lemma {:induction false} DedupFromIds(rows: seq<Row>, seen: set<string>)
    ensures UniqueIds(DedupFrom(rows, seen))
    ensures Ids(DedupFrom(rows, seen)) == Ids(rows) - seen
    decreases |rows|
  {
    if |rows| > 0 {
      var x := rows[0];
      IdsCons(rows);
      if x.id in seen {
        DedupFromIds(rows[1..], seen);
      } else {
        var tail := DedupFrom(rows[1..], seen + {x.id});
        DedupFromIds(rows[1..], seen + {x.id});
        assert DedupFrom(rows, seen) == [x] + tail;
        IdsCons([x] + tail);
        assert ([x] + tail)[1..] == tail;
      }
    }
  }

  /** Every row `DedupFrom` keeps is the first input row with its `ID`. */
  lemma {:induction false} DedupFromFirst(rows: seq<Row>, seen: set<string>)
    ensures forall k :: 0 <= k < |DedupFrom(rows, seen)| ==>
      DedupFrom(rows, seen)[k] in rows &&
      DedupFrom(rows, seen)[k].id in Ids(rows) &&
      DedupFrom(rows, seen)[k] == FirstWithId(rows, DedupFrom(rows, seen)[k].id)
    decreases |rows|
  {
    if |rows| > 0 {
      var x := rows[0];
      var r := DedupFrom(rows, seen);
      DedupStep(rows, seen);
      IdsCons(rows);
      var seen' := if x.id in seen then seen else seen + {x.id};
      var tail := DedupFrom(rows[1..], seen');
      DedupFromFirst(rows[1..], seen');
      DedupFromIds(rows[1..], seen');
      forall k | 0 <= k < |r|
        ensures r[k] in rows && r[k].id in Ids(rows) && r[k] == FirstWithId(rows, r[k].id)
      {
        if x.id in seen || k > 0 {
          var j := if x.id in seen then k else k - 1;
          assert r[k] == tail[j];
          assert tail[j].id != x.id by {
            assert tail[j].id in Ids(tail);
          }
          assert r[k] in rows[1..];
        }
      }
    }
  }

  /** `group_by("ID").first()`: one row per `ID`, the first one in the frame.
      Polars leaves the order of the groups open; the model keeps them in
      order of first occurrence, one of the orders `GroupedFirst` allows. */
  function GroupByFirst(rows: seq<Row>): (r: seq<Row>)
    ensures UniqueIds(r)
    ensures Ids(r) == Ids(rows)
    ensures forall k :: 0 <= k < |r| ==> r[k].id in Ids(rows) && r[k] == FirstWithId(rows, r[k].id)
  {
    DedupFromIds(rows, {});
    DedupFromFirst(rows, {});
    DedupFrom(rows, {})
  }

  /** What `group_by("ID").first()` promises in whatever order it returns
      its groups: distinct `ID`s, the `ID`s of the input, and for each the
      first input row carrying it. */
  predicate GroupedFirst(rows: seq<Row>, out: seq<Row>) {
    && UniqueIds(out)
    && Ids(out) == Ids(rows)
    && forall k :: 0 <= k < |out| ==> out[k].id in Ids(rows) && out[k] == FirstWithId(rows, out[k].id)
  }

  /** The set of rows of a sequence. */
  function RowSet(rows: seq<Row>): set<Row> {
    set r | r in rows
  }

  /** Any two results `group_by("ID").first()` may return hold the same rows
      and as many of them: they differ only in order. */
  lemma GroupedFirstAgree(rows: seq<Row>, a: seq<Row>, b: seq<Row>)
    requires GroupedFirst(rows, a) && GroupedFirst(rows, b)
    ensures RowSet(a) == RowSet(b)
    ensures |a| == |b|
  {
    UniqueIdsCount(a);
    UniqueIdsCount(b);
    GroupedFirstRows(rows, a);
    GroupedFirstRows(rows, b);
  }

  /** The rows of a grouped result are the first rows of the input's `ID`s. */
  lemma GroupedFirstRows(rows: seq<Row>, out: seq<Row>)
    requires GroupedFirst(rows, out)
    ensures RowSet(out) == set id | id in Ids(rows) :: FirstWithId(rows, id)
  {
    forall id | id in Ids(rows)
      ensures FirstWithId(rows, id) in RowSet(out)
    {
      assert id in Ids(out);
      var r :| r in out && r.id == id;
      var k :| 0 <= k < |out| && out[k] == r;
    }
  }

  /** The model's own order is one of the orders polars may return. */
  lemma GroupByFirstIsGrouped(rows: seq<Row>)
    ensures GroupedFirst(rows, GroupByFirst(rows))
  {
  }

  lemma RowSetAppend(a: seq<Row>, b: seq<Row>)
    ensures RowSet(a + b) == RowSet(a) + RowSet(b)
  {
    assert forall x :: x in a + b <==> x in a || x in b;
  }

  // ---------------------------------------------------------------------------
  // Lemmas

  lemma IdsAppend(a: seq<Row>, b: seq<Row>)
    ensures Ids(a + b) == Ids(a) + Ids(b)
  {
    assert forall x :: x in a + b <==> x in a || x in b;
  }

  /** The `ID`s of a non-empty sequence: the head's and the tail's. */
  lemma IdsCons(rows: seq<Row>)
    requires |rows| > 0
    ensures Ids(rows) == {rows[0].id} + Ids(rows[1..])
  {
    assert rows == [rows[0]] + rows[1..];
    IdsAppend([rows[0]], rows[1..]);
    assert Ids([rows[0]]) == {rows[0].id};
  }

  /** With distinct `ID`s, the head's `ID` is not in the tail. */
  lemma HeadIdFresh(rows: seq<Row>)
    requires |rows| > 0 && UniqueIds(rows)
    ensures UniqueIds(rows[1..])
    ensures rows[0].id !in Ids(rows[1..])
  {
    forall y | y in rows[1..] ensures y.id != rows[0].id {
      var j :| 0 <= j < |rows[1..]| && rows[1..][j] == y;
      assert rows[j + 1] == y;
    }
  }

  /** Rows with distinct `ID`s are as many as their `ID`s. */
  lemma {:induction false} UniqueIdsCount(rows: seq<Row>)
    requires UniqueIds(rows)
    ensures |Ids(rows)| == |rows|
    decreases |rows|
  {
    if |rows| > 0 {
      HeadIdFresh(rows);
      UniqueIdsCount(rows[1..]);
      IdsCons(rows);
    }
  }

  /** The first row of an `ID` in `a + b` is found in `a` when `a` has that `ID`. */
  lemma {:induction false} FirstWithIdAppend(a: seq<Row>, b: seq<Row>, id: string)
    requires id in Ids(a)
    ensures id in Ids(a + b) && FirstWithId(a + b, id) == FirstWithId(a, id)
    decreases |a|
  {
    IdsAppend(a, b);
    assert (a + b)[0] == a[0];
    if a[0].id != id {
      assert a == [a[0]] + a[1..];
      IdsAppend([a[0]], a[1..]);
      assert (a + b)[1..] == a[1..] + b;
      FirstWithIdAppend(a[1..], b, id);
    }
  }

  /** Moving one element of `all` into `seen`. */
  lemma UnionShift(seen: set<string>, y: string, all: set<string>, others: set<string>)
    requires all == {y} + others
    ensures seen + {y} + others == seen + all
    ensures y in seen ==> seen + others == seen + all
  {
  }

  /** One step of `DedupFrom`. */
  lemma DedupStep(rows: seq<Row>, seen: set<string>)
    requires |rows| > 0
    ensures DedupFrom(rows, seen) ==
      if rows[0].id in seen then DedupFrom(rows[1..], seen)
      else [rows[0]] + DedupFrom(rows[1..], seen + {rows[0].id})
  {
  }

  /** Deduplicating a concatenation: the second part only contributes the
      `ID`s the first part did not have. */
  lemma {:induction false} DedupFromAppend(a: seq<Row>, b: seq<Row>, seen: set<string>)
    ensures DedupFrom(a + b, seen) == DedupFrom(a, seen) + DedupFrom(b, seen + Ids(a))
    decreases |a|
  {
    if |a| == 0 {
      assert a + b == b;
      assert Ids(a) == {};
      assert seen + Ids(a) == seen;
    } else {
      var x := a[0];
      var seen' := if x.id in seen then seen else seen + {x.id};
      DedupFromAppend(a[1..], b, seen');
      IdsCons(a);
      UnionShift(seen, x.id, Ids(a), Ids(a[1..]));
      ConsAppend(a, b);
      DedupStep(a + b, seen);
      DedupStep(a, seen);
    }
  }

  lemma ConsAppend(a: seq<Row>, b: seq<Row>)
    requires |a| > 0
    ensures (a + b)[0] == a[0] && (a + b)[1..] == a[1..] + b
  {
  }

  /** Rows that already have distinct, unseen `ID`s pass unchanged. */
  lemma {:induction false} DedupFromUnique(rows: seq<Row>, seen: set<string>)
    requires UniqueIds(rows)
    requires Ids(rows) !! seen
    ensures DedupFrom(rows, seen) == rows
    decreases |rows|
  {
    if |rows| > 0 {
      var x := rows[0];
      assert rows == [x] + rows[1..];
      IdsAppend([x], rows[1..]);
      assert Ids([x]) == {x.id};
      assert x.id !in Ids(rows[1..]) by {
        forall y | y in rows[1..] ensures y.id != x.id {
          var j :| 0 <= j < |rows[1..]| && rows[1..][j] == y;
          assert rows[j + 1] == y;
        }
      }
      DedupFromUnique(rows[1..], seen + {x.id});
    }
  }

  /** Rows whose `ID`s have all been seen contribute nothing. */
  lemma {:induction false} DedupFromCovered(rows: seq<Row>, seen: set<string>)
    requires Ids(rows) <= seen
    ensures DedupFrom(rows, seen) == []
    decreases |rows|
  {
    if |rows| > 0 {
      assert rows == [rows[0]] + rows[1..];
      IdsAppend([rows[0]], rows[1..]);
      DedupFromCovered(rows[1..], seen);
    }
  }
}
